=== FILE: README.md ===
# Car dealership system: account security, inventory and test mode

A Dafny model of three parts of a Swing/SQLite car dealership application. The stores are abstract values, not SQL tables.

- **Account security** (`base.dfy`, `accounts.dfy`, `login.dfy`, `admin_ops.dfy`, `dashboards.dfy`):
  - the user lookup of the login screen, with its built-in emergency administrator, case-insensitive usernames and the fallback from `role_id` to a role. The emergency check folds case as Java's `equalsIgnoreCase` does, and the table lookup as SQLite's ASCII-only `LOWER` does;
  - the login decision: not found, locked, correct password with or without a temporary password, and wrong password;
  - the failed-attempt counter, which locks a non-Admin account at three failures while Admins are exempt;
  - the Employee List operations: toggling an account's active flag, replacing a user's permission grants, and the guards of profile creation and permission editing;
  - the permission gates that decide which buttons each role's dashboard creates.
- **Inventory** (`inventory.dfy`): the dealership's fixed-capacity vehicle array with fill count `nv`, its sales array with count `ns`, and the id watermark `nextId`. It covers:
  - adding, with rollback when persistence throws;
  - removing, with an order-preserving shift;
  - selling and lookup by id;
  - the budget and car-type filters and the per-kind counts;
  - reloading from the store under the capacity bound.
- **Test mode** (`test_mode.dfy`): the database manager's switch between the production store and a throw-away in-memory store. This covers connection routing of inserts, updates and queries, entering and leaving test mode, the schema-only copy and the fixture seeding.

Store failures are made explicit:
- the login procedure takes a `Fault` value naming which statement throws;
- toggling an account takes a `ToggleFault`, replacing grants a `PermissionsFault`, the permission-editing guard an `EditFault` and the profile-creation guard a `ProfileFault`;
- the inventory operations take flags or a `Persist` value, and reloading takes the `rs.next()` call that throws;
- test-mode entry takes an `EnterFault`.

The password check (`User.checkPassword`), the wall clock and the user's permission map are parameters.

## Model

| member | source | states |
|---|---|---|
| Base.EqualsIgnoreCaseCharwise | src/carDealership/LoginFrame.java:216 | the lookup's `LOWER(username) = LOWER(?)` holds exactly when the names have the same length and agree at every position up to ASCII letter case |
| Base.JavaFoldRespectsLower | src/carDealership/LoginFrame.java:170-216 | names equal under the lookup's ASCII folding are both accepted or both refused by Java's `equalsIgnoreCase` against a lower-case ASCII word |
| Base.LowerImpliesJavaEquals | src/carDealership/LoginFrame.java:170-216 | every ASCII spelling of a lower-case ASCII word also passes Java's `equalsIgnoreCase` |
| Base.DecimalString | src/carDealership/LoginFrame.java:946 | Java's rendering of a number in string concatenation: decimal digits that denote the number, without a leading zero |
| Base.DecimalStringInjective | src/carDealership/LoginFrame.java:946 | two numbers render alike exactly when they are equal |
| AccountStore.StoredActive | src/carDealership/LoginFrame.java:301-305 | the status query reads a user as active when no row has the id, and otherwise exactly when the first row with the id has `is_active` = 1 |
| AccountStore.RoleFromId | src/carDealership/LoginFrame.java:222-229 | the fallback role is Admin exactly for role id 1, Manager exactly for 2, and Salesperson for every other id |
| AccountStore.ToUser | src/carDealership/LoginFrame.java:113-131 | the user object carries the row's id, username, password, name, email and phone and the chosen role; it is active exactly when `is_active` = 1 and temporary exactly when `is_temp_password` = 1 |
| AccountStore.JoinedRow | src/carDealership/LoginFrame.java:195-212 | the join path returns the first row whose name matches ignoring case and whose `role_id` exists in `roles`, with the role its role name names; it returns nothing exactly when every such row with a known role name comes after an earlier joining row |
| AccountStore.DirectRow | src/carDealership/LoginFrame.java:214-233 | the direct query finds a row exactly when some name matches ignoring case; it returns the first such row, with the role its `role_id` maps to (1 Admin, 2 Manager, else Salesperson) |
| AccountStore.LookupRow | src/carDealership/LoginFrame.java:195-236 | the table lookup finds nothing exactly when no row's name matches ignoring case; what it finds has a matching name and either the role its role name names or the role its id maps to |
| AccountStore.LookupRowChoice | src/carDealership/LoginFrame.java:195-236 | the lookup returns either the first joining row with the role its known role name names, or, when the join yields no usable row, the first row whose name matches with the role its id maps to |
| AccountStore.LookupRowStable | src/carDealership/LoginFrame.java:195-233 | the lookup depends only on names, role ids and the `roles` table: two stores that agree on those choose the same row and role |
| AccountStore.UpdateKeepsLookup | src/carDealership/LoginFrame.java:195-233 | an UPDATE that keeps ids, names and role ids does not change the row and role the lookup chooses for any name |
| AccountStore.UpdateKeepsRowPosition | src/carDealership/LoginFrame.java:301-305 | after an id-keeping UPDATE, the query by id finds the same row as before, updated when it had the target id |
| AccountStore.LoadUser | src/carDealership/LoginFrame.java:170-174 | every name Java's `equalsIgnoreCase` equates with "admin" yields the built-in Admin (id 999, password "admin", active, not temporary) without consulting the tables, every ASCII spelling included |
| AccountStore.EmergencyNameSpellings | src/carDealership/LoginFrame.java:170 | the emergency names are exactly the five-letter spellings of "admin" with each letter in either case, where the i may also be the dotless ı (U+0131) or the dotted İ (U+0130) |
| AccountStore.DottedAdminIsEmergency | src/carDealership/LoginFrame.java:170-216 | "admın" and "admİn" load the built-in Admin, although the lookup's ASCII folding would not match them with "admin" |
| AccountStore.LoadUserFindsMatchingRow | src/carDealership/LoginFrame.java:195-236 | for other names a user is found exactly when some row's name matches ignoring case; the user is built from such a row, with the role its role name names or the role its id maps to |
| AccountStore.JoinPathRole | src/carDealership/LoginFrame.java:195-212 | when the first row that joins with `roles` has a role name createUserFromRole knows, that row is loaded with that role |
| AccountStore.LookupIgnoresCase | src/carDealership/LoginFrame.java:170-233 | two names that differ only in letter case load the same user |
| AccountStore.FallbackRoleFromId | src/carDealership/LoginFrame.java:214-232 | when no matching row's `role_id` exists in `roles`, the first matching row is loaded with the role its id maps to |
| AccountStore.UnknownRoleNameFallsBack | src/carDealership/LoginFrame.java:195-232 | when the first joining row carries a role name other than Admin, Manager or Salesperson, the `Unknown role` error is caught and the first row whose name matches, joining or not, is loaded with the role its id maps to |
| AccountStore.CaseVariantJoinsUnknownRole | src/carDealership/LoginFrame.java:195-232 | "Bob" with an unknown role id stored before "bob" whose role name is "Intern": looking up "bob" loads "Bob" as a Salesperson |
| Login.Authenticate | src/carDealership/LoginFrame.java:286-402 | a name that does not load gives "not found" with no write unless the lookup throws, and "not found" only then; a database error occurs exactly when the lookup or the status query throws, and it writes nothing; a dashboard or forced change is reached only with a correct password and the matching temporary flag; lockout and remaining-attempt outcomes only for a found non-Admin |
| Login.Attempt | src/carDealership/LoginFrame.java:299-347 | a database error occurs exactly when the status query throws; the account is rejected as locked exactly when it is a non-Admin whose stored status is inactive, and then nothing is written; login proceeds only for a correct password, as the loaded user with the stored status; an Admin's wrong password writes nothing |
| Login.PasswordAccepted | src/carDealership/LoginFrame.java:326-342 | a correct password leads to the forced password change exactly when the temporary flag is set, and to the dashboard otherwise; a failed reset is swallowed and writes nothing |
| Login.TrackFailure | src/carDealership/LoginFrame.java:345-387 | a wrong password yields the generic message, a lockout or attempts left; a failing increment or re-read yields the generic message; a lockout only happens when no statement threw; at least one attempt is reported left |
| Login.CorrectPasswordResetsCounter | src/carDealership/LoginFrame.java:326-332 | after a successful reset the stored counter is 0 and the stored status is unchanged |
| Login.WrongPasswordCounts | src/carDealership/LoginFrame.java:348-377 | a wrong password adds one to the stored counter; at 3 or more the row is deactivated and the outcome is a lockout, below 3 the status is kept and 3 minus the new count attempts are reported |
| Login.TrackFailureFrame | src/carDealership/LoginFrame.java:345-387 | attempt tracking changes only `is_active` and `failed_attempts`, only in the rows of that user, and no other table |
| Login.AuthenticateFrame | src/carDealership/LoginFrame.java:286-402 | a login attempt either writes nothing or changes only the counter and status columns of the user it found |
| Login.LoadUserAfterCounterChange | src/carDealership/LoginFrame.java:329 | incrementing or resetting a counter does not change which user any name loads |
| Login.LoadUserAfterDeactivation | src/carDealership/LoginFrame.java:362 | deactivating a row keeps which user id and role a name loads |
| Login.LockedAccountRejected | src/carDealership/LoginFrame.java:301-320 | a non-Admin with inactive stored status is rejected as locked whatever the password, with no write |
| Login.CorrectPasswordLogsIn | src/carDealership/LoginFrame.java:323-342 | the right password for an active account or an Admin opens the dashboard or the forced change for the loaded user with the stored status, and the counter ends at 0 unless the reset throws |
| Login.AdminWrongPasswordChangesNothing | src/carDealership/LoginFrame.java:346-347 | a wrong password for an Admin writes nothing and shows "Invalid password" |
| Login.AdminNeverLocked | src/carDealership/LoginFrame.java:346-380 | any number of wrong passwords for an Admin leave every table unchanged |
| Login.WrongPasswordIsTracked | src/carDealership/LoginFrame.java:343-348 | a wrong password for an active non-Admin goes to attempt tracking for that user's id |
| Login.WrongAttemptBelowThreshold | src/carDealership/LoginFrame.java:348-377 | below the threshold, a wrong password reports the remaining attempts, keeps the account active and loadable as the same user, and raises the counter by one |
| Login.WrongAttemptAtThreshold | src/carDealership/LoginFrame.java:348-371 | reaching the threshold locks the account; the name still loads the same id and role |
| Login.ThreeStrikes | src/carDealership/LoginFrame.java:301-377 | from a zero counter, three wrong passwords report 2 left, then 1 left, then a lockout; the next attempt is rejected as locked even with the right password, and writes nothing |
| Login.AttemptWordAgreesWithCount | src/carDealership/LoginFrame.java:374-376 | the status text says "attempts" exactly when the remaining count is not 1, and "1 attempt remaining." when it is |
| AdminOps.ToggleActive | src/carDealership/LoginFrame.java:1034-1059 | a cancelled dialog, an unknown name or a throwing `loadUser` changes nothing; a throw in the reset changes nothing; a throw in `updateUser` keeps the committed reset; otherwise the account becomes active exactly when the loaded user was inactive; the other tables are untouched |
| AdminOps.ToggleMessageMentionsReset | src/carDealership/LoginFrame.java:1051-1058 | the message mentions the counter reset exactly when the account was reactivated |
| AdminOps.ToggleFlipsOneRow | src/carDealership/LoginFrame.java:1038-1049 | the user's row gets the opposite active flag and a zero counter exactly when it is reactivated; every other row is unchanged |
| AdminOps.ToggleStoredStatus | src/carDealership/LoginFrame.java:1038-1049 | read back by id, the account is active exactly when it was not, its counter is 0 after a reactivation, and it is kept after a deactivation |
| AdminOps.ToggleKeepsLookup | src/carDealership/LoginFrame.java:1038-1049 | toggling, whether or not it throws, never changes which row and role any name loads |
| AdminOps.ToggleUpdateFailure | src/carDealership/LoginFrame.java:1041-1049 | when `updateUser` throws, the stored status is the loaded one, so a locked account stays locked while its counter reads 0; an active account is left exactly as it was |
| AdminOps.ToggleTwiceRestoresStatus | src/carDealership/LoginFrame.java:1034-1059 | toggling the same account twice restores its active flag |
| AdminOps.UpdatePermissions | src/carDealership/LoginFrame.java:1126-1144 | a throwing DELETE changes nothing; otherwise the grants become the others' grants plus one enabled grant for each checked existing name among the boxes handled before a throw, a subset of the full replacement; without a throw that is every box; the checked names without a permission are reported in order; no other table changes |
| AdminOps.ReplacedGrantsGrow | src/carDealership/LoginFrame.java:1130-1136 | the grants inserted for a prefix of the boxes are among those of the full replacement |
| AdminOps.ReplacedGrantsExactly | src/carDealership/LoginFrame.java:1126-1144 | after the replacement another user's grant is present exactly when it was before, and a grant of the user is present exactly when it is enabled and its permission id belongs to a checked existing name |
| AdminOps.ReplaceThenLoad | src/carDealership/LoginFrame.java:1126-1144 | reading the user's enabled permissions back gives exactly the checked names that exist in `permissions` |
| AdminOps.EditPermissions | src/carDealership/LoginFrame.java:1061-1121 | a cancelled prompt returns before any read; a thrown lookup, or a thrown permissions read for a found active user, ends in the database-error message; otherwise the checkbox dialog opens exactly for a found active user and is refused for a missing or inactive one; each box is checked exactly when the user's permission map holds that name as true |
| AdminOps.PermissionsMap | src/carDealership/LoginFrame.java:1078 | the permission map holds exactly the names the user has enabled grants for, all true |
| AdminOps.ConfirmUnchangedKeepsPermissions | src/carDealership/LoginFrame.java:1061-1144 | confirming the dialog unchanged keeps the user's permissions among the nine names and drops any other |
| AdminOps.TempPassword | src/carDealership/LoginFrame.java:946 | the temporary password is "temp" followed by digits that denote the clock value in milliseconds, without a leading zero |
| AdminOps.TempPasswordInjective | src/carDealership/LoginFrame.java:946 | two clock readings give the same temporary password only when they are equal |
| AdminOps.CreateProfile | src/carDealership/LoginFrame.java:909-947 | only an Admin gets past the first guard; cancel and empty-field outcomes exactly as guarded; with every field filled, a thrown lookup, or a thrown `createUser` for a free name, ends in the database-error message; "taken" exactly when the lookup does not throw and loads a user; a profile is requested exactly when nothing throws and the name is free, with the form's data and the temporary password |
| AdminOps.CaseVariantIsTaken | src/carDealership/LoginFrame.java:941-944 | a username differing from an existing one only in letter case is refused as taken |
| Dashboards.Gate | src/carDealership/LoginFrame.java:1305 | a gated button is created exactly when the permission map holds the name as true, or lacks it and the default is true |
| Dashboards.DashboardShowsExactly | src/carDealership/LoginFrame.java:473-559 | a button is on a dashboard exactly when the role's code offers it and it is ungated, on the Admin dashboard, or granted with the role's default for absent names |
| Dashboards.ManagerMembership | src/carDealership/LoginFrame.java:1291-1387 | the Manager dashboard holds a button exactly when the reference description shows it (Search defaults to shown) |
| Dashboards.SalespersonMembership | src/carDealership/LoginFrame.java:1698-1766 | the Salesperson dashboard holds a button exactly when the reference description shows it (every permission, Search included, defaults to hidden) |
| Dashboards.DashboardInCreationOrder | src/carDealership/LoginFrame.java:1698-1766 | every dashboard's buttons follow the role's creation order, so no button appears twice |
| Dashboards.EmptyPermissionMaps | src/carDealership/LoginFrame.java:1305-1387 | with an empty map the Manager sees Log Out and Search, the Salesperson only Log Out, and the Admin all twelve buttons |
| Dashboards.FullPermissionMaps | src/carDealership/LoginFrame.java:1305-1766 | with every gate granted a Manager or Salesperson sees exactly the buttons their dashboard offers, and never an Admin-only one |
| Inventory.NewDealership | src/carDealership/Dealership.java:46-55 | a new dealership is valid and empty, full only when its capacity is zero, with room for `maxInventory` vehicles and twice as many sales, and the watermark at 1 |
| Inventory.IsFull | src/carDealership/Dealership.java:429 | with the slots in use at the front, the count reaches the capacity exactly when no slot is free; `AddVehicle` refuses exactly when it holds, and a removal or a sale of a vehicle in stock leaves a dealership that is not full |
| Inventory.IsEmpty | src/carDealership/Dealership.java:436 | with the slots in use at the front, the count is zero exactly when nothing is in stock and every slot is null |
| Inventory.IndexOfId | src/carDealership/Dealership.java:213-220 | the index is -1 exactly when no slot below `nv` holds the id, and otherwise the first slot that does |
| Inventory.VehicleById | src/carDealership/Dealership.java:300-307 | null exactly when no slot below `nv` holds the id, and otherwise the vehicle in the first slot that does |
| Inventory.ShiftDown | src/carDealership/Dealership.java:175-178 | slots before the index are kept, later slots below `nv` move down by one, the last used slot is cleared, and slots beyond are kept |
| Inventory.ShiftDownContents | src/carDealership/Dealership.java:175-178 | shifting down keeps the dealership valid and deletes exactly that vehicle from the contents, keeping the order |
| Inventory.RemoveVehicle | src/carDealership/Dealership.java:161-180 | null or an absent id changes nothing; otherwise the first vehicle with the id is removed with order kept and `nv` lowered by one; a failing DELETE changes nothing |
| Inventory.AddVehicle | src/carDealership/Dealership.java:91-152 | a full inventory refuses with nothing changed; a throwing INSERT or id query leaves the dealership as before; otherwise the copy is appended, carrying the generated id, and the watermark rises above that id |
| Inventory.RecordSaleAsWritten | src/carDealership/Dealership.java:197 | the sales counter rises even when the store into the sales array throws, which happens exactly when the counter is outside the array |
| Inventory.SaleLostWhenSalesFull | src/carDealership/Dealership.java:191-205 | with a full sales array the sale of an already removed vehicle is not recorded, and the dealership is left invalid |
| Inventory.SellAsWrittenRecordsOnlyWithRoom | src/carDealership/Dealership.java:197 | recording succeeds exactly when the array has room, and then the sales log grows by exactly that sale |
| Inventory.SellVehicleAsWritten | src/carDealership/Dealership.java:191-205 | the method as written: it sells exactly when there is room, the vehicle is in stock and nothing throws; with a full sales array and an in-stock vehicle the call throws after the first slot holding the id has left the stock, with the sales log unchanged and the counter one past the array |
| Inventory.SellVehicle | src/carDealership/Dealership.java:191-205 | a sale completes exactly when there is room, the vehicle is in stock and no statement throws; a refused sale changes nothing; a recorded sale removes the first slot holding that id, leaves the dealership not full, and appends the sale with the buyer's name and contact |
| Inventory.SelectMembers | src/carDealership/Dealership.java:327-335 | the selection holds a vehicle exactly when it passes the filter and occupies some slot |
| Inventory.CollectSelected | src/carDealership/Dealership.java:466-479 | the loop collects exactly the vehicles among the first `n` slots that pass the filter, in slot order |
| Inventory.CarsWithinBudget | src/carDealership/Dealership.java:327-335 | the result is exactly the cars of the whole array priced at most the budget, in slot order |
| Inventory.SearchCar | src/carDealership/Dealership.java:466-479 | the result is exactly the cars among the first `nv` slots whose type equals the given one, in slot order |
| Inventory.TotalCars | src/carDealership/Dealership.java:443-447 | the count is the number of cars among the first `nv` slots |
| Inventory.TotalMotorcycles | src/carDealership/Dealership.java:454-458 | the count is the number of motorcycles among the first `nv` slots |
| Inventory.CarsPlusMotorcycles | src/carDealership/Dealership.java:443-458 | in fully occupied slots every vehicle is either a car or a motorcycle, so the two counts add up to the number of slots |
| Inventory.TotalsAddUp | src/carDealership/Dealership.java:443-458 | in a valid dealership the car and motorcycle counts add up to `nv` |
| Inventory.Decode | src/carDealership/Dealership.java:264-285 | a row becomes a vehicle exactly when it has a car type or a handlebar type; it is a car exactly when the car type is present; id, make, model, color, year, price and the present type are kept |
| Inventory.DecodeRowOf | src/carDealership/Dealership.java:109-116 | the row addVehicle's INSERT stores for a vehicle decodes back to that vehicle, and a row with at most one type column is the stored row of what it decodes to |
| Inventory.WatermarkAboveIds | src/carDealership/Dealership.java:287-290 | the watermark never falls and ends above every id read |
| Inventory.DecodedPrefix | src/carDealership/Dealership.java:263-291 | the vehicles decoded from a prefix of the rows are a prefix of those decoded from all rows |
| Inventory.DecodedMembers | src/carDealership/Dealership.java:275-285 | a vehicle is decoded exactly when some row decodes to it |
| Inventory.ReloadInventory | src/carDealership/Dealership.java:251-292 | from any sales state, the array is emptied and refilled with the decodable rows in order until it is full, so without a throw `nv` is the smaller of their number and the capacity; a throw leaves a prefix of that, empty when the query or the first `rs.next()` throws; the watermark rises above every id read; the sales are untouched |
| TestMode.Active | src/persistance/DBManager.java:413-415 | the active store is the test store exactly when the flag is set, and production otherwise |
| TestMode.RunWrite | src/persistance/DBManager.java:109-119 | a statement changes only the active store, leaves the flag, and changes nothing when it throws |
| TestMode.RunQuery | src/persistance/DBManager.java:129-156 | a query reads the test store in test mode and production otherwise |
| TestMode.TestWritesSpareProduction | src/persistance/DBManager.java:245-255 | in test mode no sequence of writes changes the production store |
| TestMode.ProductionWritesSpareTest | src/persistance/DBManager.java:245-255 | outside test mode no sequence of writes changes the test store |
| TestMode.CopySchema | src/persistance/DBManager.java:483-514 | the test store gets exactly the tables whose name does not start with "sqlite_" and which have a CREATE statement, with that statement, its columns and no rows |
| TestMode.InsertRows | src/persistance/DBManager.java:525-566 | an INSERT succeeds exactly when its table exists and has every column the rows name, and then appends the rows to that table only |
| TestMode.SeedTestData | src/persistance/DBManager.java:521-570 | seeding succeeds exactly when the users, dealerships, Vehicle and Sales tables exist with every column their fixture rows name, and never changes the schema |
| TestMode.SeedContents | src/persistance/DBManager.java:521-570 | seeding appends exactly the fixture rows to the four tables and leaves every other table as it was |
| TestMode.SeedingNeedsTempPasswordColumn | src/persistance/DBManager.java:348-351 | a `users` table without `is_temp_password`, as `createTables` declares it, makes seeding throw |
| TestMode.CopiedSchemaSeedable | src/persistance/DBManager.java:483-570 | seeding the copied schema works exactly when every fixture table is copied from production with every column its fixture rows name |
| TestMode.FixtureUsers | src/persistance/DBManager.java:525-561 | the three fixture users have password "test123", role ids 1, 2 and 3, are active and have no temporary password; of the five vehicles the first three are cars and the last two motorcycles |
| TestMode.EnterTestMode | src/persistance/DBManager.java:433-453 | a no-op in test mode; production is never changed; the flag is set exactly when entry does not throw, and then the test store is the seeded copy of production's schema; without a connection or copy fault, entry throws exactly when the copied schema cannot take the fixtures |
| TestMode.EnterFailsOnCreatedUsersTable | src/persistance/DBManager.java:348-351 | a production `users` table with the columns `createTables` declares makes entry throw with the flag clear and production unchanged |
| TestMode.ExitTestMode | src/persistance/DBManager.java:460-476 | a no-op outside test mode; otherwise the call throws exactly when closing the test connection throws, leaving the manager unchanged and still in test mode; when it does not, the test store is dropped and the flag cleared; production is never changed |
| TestMode.EnterExitIdempotent | src/persistance/DBManager.java:433-476 | entering again after a successful entry, or leaving again after a successful exit, changes nothing more; after a throwing exit, a retry behaves as the first attempt |
| TestMode.TestSessionSparesProduction | src/persistance/DBManager.java:433-476 | entering, writing and leaving, whether or not leaving throws, leaves production as it was; when entering throws, the writes go to production as if entry had not been attempted |
| TestMode.GetInstance | src/persistance/DBManager.java:400-405 | with no stored manager the constructor runs: its manager is stored and returned, or it throws and the field stays empty; a stored manager is returned without construction |
| TestMode.SameInstanceEveryTime | src/persistance/DBManager.java:400-405 | every call after a successful one returns the instance that call returned; after a throwing construction the next call constructs again |

## Left out

- Swing is not modelled: frames, dialogs, colours, layout, the logout confirmation, the re-prompting password change, and the dashboards' action handlers. Dialog results are `Option` inputs, and the shown texts are outcome values.
- SQL text, JDBC result-set handling, the database path, table creation and the report generators are not modelled. The stores are abstract values.
- The "first row" a query returns is taken to be the first in storage order. SQL gives no order without ORDER BY.
- Table names are matched exactly, although SQLite compares them ignoring case. A table's schema is its CREATE statement and its set of column names; column types, defaults and constraints are not modelled, so an INSERT fails only for a missing table or column.
- Recreating the `roles` table at `LoginFrame.loadUser` lines 176-192 is not modelled. Its failures are caught and printed, and a missing `roles` table is modelled as a `roles` map without the row.
- The debugging dump of all users at the start of `loadUser` is left out. It is printed only, and its failure is caught.
- The internals of `User.checkPassword`, `incrementFailedAttempts`, `resetFailedAttempts` and `Admin.createUser` are not part of this model:
  - the password check is a parameter;
  - the counter changes are modelled as `UPDATE ... WHERE user_id` statements on the stored counter;
  - profile creation yields the request passed to `createUser`.
- `User.loadUser`, called by the Employee List operations, is not part of this model. It is taken to be the table part of the login lookup, without the emergency administrator.
- `User.getPermissionsMap` and `loadPermissions` are not part of this model. The map is a parameter. `AdminOps.PermissionsMap` is the reading used to state what confirming an unchanged dialog does.
- Login.Authenticate: the "Error: " outcome for exceptions other than `SQLException` is not modelled. The store only throws `SQLException` here.
- Login.Authenticate: a join query that throws while the direct query succeeds is not a separate fault. The user then loads from the direct query with the role its id maps to, as when the join yields no usable row.
- Login.TrackFailure: the `boolean` returned by `incrementFailedAttempts` is ignored by the source and not modelled.
- Inventory.AddVehicle: `vehicle.setId(generatedId)` on the caller's object (Dealership.java:128) is not modelled. Only the inventory copy carries the generated id.
- Inventory.AddVehicle: when the id query throws after the INSERT committed, memory is rolled back but the inserted row stays in the store. The store side is not modelled.
- Inventory.SellVehicle: the sale date is a parameter instead of `LocalDate.now()`. The sale INSERT's user id placeholder is not modelled.
- Prices are integers. Floating-point prices, `salesProfit`, `carBudget` (an empty stub), `showSalesHistory`, `getInfoGUI`, serialization and `refreshOnTestModeChange` are not modelled.
- `nextId` and the counters are unbounded integers. Java's 32-bit wrap-around at `generatedId + 1` is not modelled.
- TestMode.EnterTestMode: when entry throws after the in-memory store was opened, the half-built store left on the connection is modelled coarsely:
  - if copying throws, the store is empty;
  - if seeding throws, it holds the copied schema.
  In both cases the flag stays clear, so nothing reads that store.
- TestMode.ExitTestMode: the `isClosed` check before closing is not modelled: a connection already closed is treated like an open one. Closing is dropping the store, and `closeThrows` covers either call throwing.
- Login.PasswordAccepted: the counter is reset after a correct password for every role, Admins included, because the code does so even though Admins are otherwise exempt from tracking.

## Findings

| source | as written | input that shows it | evidently intended | confidence | as-written member | corrected member |
|---|---|---|---|---|---|---|
| src/carDealership/Dealership.java:191-205 | `sellVehicle` removes the vehicle (deleting its row) and only then stores the sale with `sales[ns++]`. With a full sales array, `ns` is incremented and the store throws `ArrayIndexOutOfBoundsException`. | A valid dealership with `ns == sales.length` (after `2 * maxInventory` sales) and a vehicle in stock | Refuse the sale before removing the vehicle when the sales array is full, so neither the vehicle nor the counter is lost | medium, not executed | Inventory.RecordSaleAsWritten, Inventory.SaleLostWhenSalesFull, Inventory.SellVehicleAsWritten | Inventory.SellVehicle |

=== FILE: accounts.dfy ===
/**
 * The account tables of the dealership store (`users`, `roles`, `permissions`,
 * `user_permissions`) as Dafny values, and the user lookup that the login
 * screen performs before every decision (LoginFrame.loadUser).
 *
 * The `users` table is a sequence in storage order, so that "the first row a
 * query returns" has a meaning; `user_permissions` has no key in the schema
 * and is a set of grant triples.
 */
module AccountStore {
  import opened Base

  datatype Role = Admin | Manager | Salesperson

  /** One row of `users`; the flags are the raw integers of the table. */
  datatype UserRow = UserRow(
    userId: int,
    username: string,
    password: string,
    roleId: int,
    name: string,
    email: string,
    phone: string,
    isActive: int,
    isTempPassword: int,
    failedAttempts: int)

  /** One row of `user_permissions`. */
  datatype Grant = Grant(userId: int, permissionId: int, isEnabled: int)

  datatype Accounts = Accounts(
    users: seq<UserRow>,
    roles: map<int, string>,          // role_id -> role_name
    permissions: map<string, int>,    // permission_name (UNIQUE) -> permission_id
    grants: set<Grant>)

  /** The in-memory user object built from a row (Admin, Manager or Salesperson). */
  datatype User = User(
    id: int,
    username: string,
    password: string,
    role: Role,
    name: string,
    email: string,
    phone: string,
    isTempPassword: bool,
    isActive: bool)

  /** The built-in administrator returned for every name Java's `equalsIgnoreCase` equates with "admin". */
  const EmergencyAdmin: User :=
    User(999, "admin", "admin", Admin, "Emergency Admin", "admin@example.com", "123-456-7890", false, true)

  /** `user_id` is the primary key of `users`. */
  ghost predicate UniqueUserIds(a: Accounts)
  {
    forall i, j :: 0 <= i < |a.users| && 0 <= j < |a.users| && a.users[i].userId == a.users[j].userId ==> i == j
  }

  /** `permission_id` is the primary key of `permissions`: no two names share an id. */
  ghost predicate UniquePermissionIds(a: Accounts)
  {
    forall n, m :: n in a.permissions && m in a.permissions && a.permissions[n] == a.permissions[m] ==> n == m
  }

  // ---------------------------------------------------------------------------
  // First-row search
  // ---------------------------------------------------------------------------

  ghost predicate IsFirstWhere(users: seq<UserRow>, p: UserRow -> bool, r: Option<nat>)
  {
    match r
    case None => forall j :: 0 <= j < |users| ==> !p(users[j])
    case Some(i) => i < |users| && p(users[i]) && forall j :: 0 <= j < i ==> !p(users[j])
  }

  /** Index of the first row, at or after `from`, that satisfies `p`. */
  function FirstWhereFrom(users: seq<UserRow>, p: UserRow -> bool, from: nat): (r: Option<nat>)
    requires from <= |users|
    ensures r.Some? ==> from <= r.value < |users| && p(users[r.value])
    ensures r.Some? ==> forall j :: from <= j < r.value ==> !p(users[j])
    ensures r.None? ==> forall j :: from <= j < |users| ==> !p(users[j])
    decreases |users| - from
  {
    if from == |users| then None
    else if p(users[from]) then Some(from)
    else FirstWhereFrom(users, p, from + 1)
  }

  /** Index of the first row in storage order that satisfies `p`, as a query
      reading one row with `rs.next()` sees it. */
  function FirstWhere(users: seq<UserRow>, p: UserRow -> bool): (r: Option<nat>)
    ensures IsFirstWhere(users, p, r)
  {
    FirstWhereFrom(users, p, 0)
  }

  // ---------------------------------------------------------------------------
  // Reading rows by id (the `... WHERE user_id = ?` queries)
  // ---------------------------------------------------------------------------

  function RowById(a: Accounts, id: int): Option<UserRow>
  {
    var i := FirstWhere(a.users, (row: UserRow) => row.userId == id);
    if i.Some? then Some(a.users[i.value]) else None
  }

  /** `SELECT is_active FROM users WHERE user_id = ?`: a missing row reads as active. */
  function StoredActive(a: Accounts, id: int): (r: bool)
    ensures RowById(a, id).None? ==> r
    ensures RowById(a, id).Some? ==> (r <==> RowById(a, id).value.isActive == 1)
  {
    match RowById(a, id)
    case None => true
    case Some(row) => row.isActive == 1
  }

  /** `SELECT failed_attempts FROM users WHERE user_id = ?`: a missing row reads as 0. */
  function StoredAttempts(a: Accounts, id: int): int
  {
    match RowById(a, id)
    case None => 0
    case Some(row) => row.failedAttempts
  }

  /** `UPDATE users SET ... WHERE user_id = ?`: `f` applied to every row with that id. */
  function UpdateWhereId(a: Accounts, id: int, f: UserRow -> UserRow): (r: Accounts)
    ensures |r.users| == |a.users|
    ensures forall i :: 0 <= i < |a.users| ==> r.users[i] == (if a.users[i].userId == id then f(a.users[i]) else a.users[i])
    ensures r.roles == a.roles && r.permissions == a.permissions && r.grants == a.grants
  {
    a.(users := seq(|a.users|, i requires 0 <= i < |a.users| =>
                      if a.users[i].userId == id then f(a.users[i]) else a.users[i]))
  }

  function SetAttempts(a: Accounts, id: int, n: int): Accounts
  {
    UpdateWhereId(a, id, (row: UserRow) => row.(failedAttempts := n))
  }

  function IncrementAttempts(a: Accounts, id: int): Accounts
  {
    UpdateWhereId(a, id, (row: UserRow) => row.(failedAttempts := row.failedAttempts + 1))
  }

  function SetActive(a: Accounts, id: int, active: bool): Accounts
  {
    UpdateWhereId(a, id, (row: UserRow) => row.(isActive := if active then 1 else 0))
  }

  /** Two row predicates that agree position by position on two tables of the
      same length pick the same first row. */
  lemma FirstWhereAgrees(xs: seq<UserRow>, p: UserRow -> bool, ys: seq<UserRow>, q: UserRow -> bool)
    requires |xs| == |ys|
    requires forall j :: 0 <= j < |xs| ==> p(xs[j]) == q(ys[j])
    ensures FirstWhere(xs, p) == FirstWhere(ys, q)
  {
  }

  /** A row-level update that keeps ids never moves rows, so the row found by an
      id afterwards is the one found before, updated when it carried the target id. */
  lemma UpdateKeepsRowPosition(a: Accounts, id: int, f: UserRow -> UserRow, other: int)
    requires forall row: UserRow :: f(row).userId == row.userId
    ensures RowById(UpdateWhereId(a, id, f), other) ==
      (match RowById(a, other)
       case None => None
       case Some(row) => Some(if row.userId == id then f(row) else row))
  {
    var b := UpdateWhereId(a, id, f);
    var p := (row: UserRow) => row.userId == other;
    FirstWhereAgrees(a.users, p, b.users, p);
  }

  // ---------------------------------------------------------------------------
  // loadUser
  // ---------------------------------------------------------------------------

  /** Role chosen from `role_id` when the join with `roles` yields nothing usable. */
  function RoleFromId(roleId: int): (r: Role)
    ensures r == Admin <==> roleId == 1
    ensures r == Manager <==> roleId == 2
  {
    if roleId == 1 then Admin else if roleId == 2 then Manager else Salesperson
  }

  /** The role names createUserFromRole accepts; any other name makes it throw. */
  function RoleFromName(roleName: string): Option<Role>
  {
    if roleName == "Admin" then Some(Admin)
    else if roleName == "Manager" then Some(Manager)
    else if roleName == "Salesperson" then Some(Salesperson)
    else None
  }

  function ToUser(row: UserRow, role: Role): (u: User)
    ensures u.id == row.userId && u.username == row.username && u.password == row.password && u.role == role
    ensures u.name == row.name && u.email == row.email && u.phone == row.phone
    ensures u.isActive <==> row.isActive == 1
    ensures u.isTempPassword <==> row.isTempPassword == 1
  {
    User(row.userId, row.username, row.password, role, row.name, row.email, row.phone,
         row.isTempPassword == 1, row.isActive == 1)
  }

  predicate NameMatches(row: UserRow, username: string)
  {
    EqualsIgnoreCase(row.username, username)
  }

  /** Rows the join `users JOIN roles ON role_id WHERE LOWER(username) = LOWER(?)` returns. */
  predicate Joins(a: Accounts, row: UserRow, username: string)
  {
    NameMatches(row, username) && row.roleId in a.roles
  }

  /** A row chosen by the lookup, with the role the user object gets. */
  datatype Match = Match(index: nat, role: Role)

  /** The join path succeeds when its first row carries a role name createUserFromRole knows. */
  function JoinedRow(a: Accounts, username: string): (r: Option<Match>)
    ensures r.Some? ==> r.value.index < |a.users| && Joins(a, a.users[r.value.index], username)
    ensures r.Some? ==> forall k :: 0 <= k < r.value.index ==> !Joins(a, a.users[k], username)
    ensures r.Some? ==> RoleFromName(a.roles[a.users[r.value.index].roleId]) == Some(r.value.role)
    ensures r.None? <==>
      forall i :: 0 <= i < |a.users| && Joins(a, a.users[i], username) && RoleFromName(a.roles[a.users[i].roleId]).Some? ==>
        exists k :: 0 <= k < i && Joins(a, a.users[k], username)
  {
    var j := FirstWhere(a.users, (row: UserRow) => Joins(a, row, username));
    if j.None? then None
    else
      match RoleFromName(a.roles[a.users[j.value].roleId])
      case None => None
      case Some(role) => Some(Match(j.value, role))
  }

  /** The direct query without the join: the first row whose name matches,
      with the role derived from `role_id`. */
  function DirectRow(a: Accounts, username: string): (r: Option<Match>)
    ensures r.None? <==> forall i :: 0 <= i < |a.users| ==> !NameMatches(a.users[i], username)
    ensures r.Some? ==> r.value.index < |a.users| && NameMatches(a.users[r.value.index], username)
    ensures r.Some? ==> forall k :: 0 <= k < r.value.index ==> !NameMatches(a.users[k], username)
    ensures r.Some? ==> r.value.role == RoleFromId(a.users[r.value.index].roleId)
  {
    var k := FirstWhere(a.users, (row: UserRow) => NameMatches(row, username));
    if k.None? then None else Some(Match(k.value, RoleFromId(a.users[k.value].roleId)))
  }

  /** The table part of loadUser: the join first, the direct query as the fallback. */
  function LookupRow(a: Accounts, username: string): (r: Option<Match>)
    ensures r.Some? ==> r.value.index < |a.users| && NameMatches(a.users[r.value.index], username)
    ensures r.None? <==> forall i :: 0 <= i < |a.users| ==> !NameMatches(a.users[i], username)
    ensures r.Some? ==> var row := a.users[r.value.index];
      r.value.role == RoleFromId(row.roleId) || (row.roleId in a.roles && RoleFromName(a.roles[row.roleId]) == Some(r.value.role))
  {
    var joined := JoinedRow(a, username);
    if joined.Some? then joined else DirectRow(a, username)
  }

  /** The row the lookup chooses: the first joining row when that row's role
      name is known, and otherwise the first row whose name matches, with the
      role its id maps to. */
  lemma LookupRowChoice(a: Accounts, username: string)
    ensures var r := LookupRow(a, username);
      r.Some? ==> var i := r.value.index;
      || (&& Joins(a, a.users[i], username)
          && (forall k :: 0 <= k < i ==> !Joins(a, a.users[k], username))
          && RoleFromName(a.roles[a.users[i].roleId]) == Some(r.value.role))
      || (&& JoinedRow(a, username).None?
          && (forall k :: 0 <= k < i ==> !NameMatches(a.users[k], username))
          && r.value.role == RoleFromId(a.users[i].roleId))
  {
  }

  function StoreLookup(a: Accounts, username: string): Option<User>
  {
    match LookupRow(a, username)
    case None => None
    case Some(m) => Some(ToUser(a.users[m.index], m.role))
  }

  /** The lookup only looks at names, role ids and the roles table, so tables
      that agree on those choose the same row and role. */
  lemma LookupRowStable(a: Accounts, b: Accounts, username: string)
    requires |a.users| == |b.users| && a.roles == b.roles
    requires forall j :: 0 <= j < |a.users| ==>
      a.users[j].username == b.users[j].username && a.users[j].roleId == b.users[j].roleId
    ensures LookupRow(a, username) == LookupRow(b, username)
  {
    FirstWhereAgrees(a.users, (row: UserRow) => NameMatches(row, username),
                     b.users, (row: UserRow) => NameMatches(row, username));
    FirstWhereAgrees(a.users, (row: UserRow) => Joins(a, row, username),
                     b.users, (row: UserRow) => Joins(b, row, username));
  }

  /** An update that keeps ids, names and role ids keeps the row and role the
      lookup chooses. */
  lemma UpdateKeepsLookup(a: Accounts, id: int, f: UserRow -> UserRow, username: string)
    requires forall row: UserRow :: f(row).userId == row.userId && f(row).username == row.username && f(row).roleId == row.roleId
    ensures LookupRow(UpdateWhereId(a, id, f), username) == LookupRow(a, username)
  {
    LookupRowStable(UpdateWhereId(a, id, f), a, username);
  }

  /** Every column the user object is built from, apart from the failed-attempt counter. */
  predicate SameUserColumns(x: UserRow, y: UserRow)
  {
    x.(failedAttempts := 0) == y.(failedAttempts := 0)
  }

  /** An update that changes only the failed-attempt counter loads the same user for every name. */
  lemma UpdateKeepsLoadUser(a: Accounts, id: int, f: UserRow -> UserRow, username: string)
    requires forall row: UserRow :: SameUserColumns(f(row), row)
    ensures LoadUser(UpdateWhereId(a, id, f), username) == LoadUser(a, username)
  {
    var b := UpdateWhereId(a, id, f);
    UpdateKeepsLookup(a, id, f, username);
    var m := LookupRow(a, username);
    if m.Some? {
      assert SameUserColumns(b.users[m.value.index], a.users[m.value.index]);
    }
  }

  /** `username.equalsIgnoreCase("admin")`, with Java's case mapping. */
  predicate IsEmergencyName(username: string)
  {
    JavaEqualsIgnoreCase(username, "admin")
  }

  /** The emergency names are the five-letter spellings of "admin" in any mix
      of letter case, with the dotless or dotted capital I also accepted for
      the i. */
  lemma EmergencyNameSpellings(username: string)
    ensures IsEmergencyName(username) <==>
      |username| == 5 &&
      forall i :: 0 <= i < 5 ==>
        (username[i] == "admin"[i] || username[i] == "ADMIN"[i] ||
         (i == 3 && (username[i] == '\U{0131}' || username[i] == '\U{0130}')))
  {
  }

  /** The lookup's SQL folding and the emergency check's Java folding differ:
      "adm\u0131n" and "adm\u0130n" load the built-in Admin, yet no stored
      "admin" row would match them in the table. */
  lemma DottedAdminIsEmergency(a: Accounts)
    ensures LoadUser(a, "adm\U{0131}n") == Some(EmergencyAdmin) && LoadUser(a, "adm\U{0130}n") == Some(EmergencyAdmin)
    ensures !EqualsIgnoreCase("adm\U{0131}n", "admin") && !EqualsIgnoreCase("adm\U{0130}n", "admin")
  {
    EmergencyNameSpellings("adm\U{0131}n");
    EmergencyNameSpellings("adm\U{0130}n");
    assert !EqualsIgnoreCase("adm\U{0131}n", "admin") by {
      assert LowerStr("adm\U{0131}n")[3] != LowerStr("admin")[3];
    }
    assert !EqualsIgnoreCase("adm\U{0130}n", "admin") by {
      assert LowerStr("adm\U{0130}n")[3] != LowerStr("admin")[3];
    }
  }

  /** LoginFrame.loadUser. */
  function LoadUser(a: Accounts, username: string): (r: Option<User>)
    ensures IsEmergencyName(username) ==> r == Some(EmergencyAdmin)
    ensures EqualsIgnoreCase(username, "admin") ==> r == Some(EmergencyAdmin)
  {
    LowerImpliesJavaEquals(username, "admin");
    if IsEmergencyName(username) then Some(EmergencyAdmin) else StoreLookup(a, username)
  }

  /** Apart from the emergency name, a user is found exactly when some row's
      name matches, and it is built from such a row. */
  lemma LoadUserFindsMatchingRow(a: Accounts, username: string)
    requires !IsEmergencyName(username)
    ensures LoadUser(a, username).Some? <==> exists i :: 0 <= i < |a.users| && NameMatches(a.users[i], username)
    ensures LoadUser(a, username).Some? ==>
      exists i :: 0 <= i < |a.users| && NameMatches(a.users[i], username) &&
        LoadUser(a, username).value == ToUser(a.users[i], LoadUser(a, username).value.role) &&
        (LoadUser(a, username).value.role == RoleFromId(a.users[i].roleId) ||
         (a.users[i].roleId in a.roles && RoleFromName(a.roles[a.users[i].roleId]) == Some(LoadUser(a, username).value.role)))
  {
    var m := LookupRow(a, username);
    if m.Some? {
      assert NameMatches(a.users[m.value.index], username);
    }
  }

  /** Looking up two spellings that differ only in letter case gives the same user. */
  lemma {:induction false} LookupIgnoresCase(a: Accounts, n1: string, n2: string)
    requires EqualsIgnoreCase(n1, n2)
    ensures LoadUser(a, n1) == LoadUser(a, n2)
  {
    JavaFoldRespectsLower(n1, n2, "admin");
    if !IsEmergencyName(n1) {
      FirstWhereAgrees(a.users, (row: UserRow) => NameMatches(row, n1), a.users, (row: UserRow) => NameMatches(row, n2));
      FirstWhereAgrees(a.users, (row: UserRow) => Joins(a, row, n1), a.users, (row: UserRow) => Joins(a, row, n2));
    }
  }

  /** When no row with a matching name has a `role_id` present in `roles`, the
      fallback decides: role id 1 is Admin, 2 is Manager, anything else Salesperson,
      taken from the first row whose name matches. */
  lemma {:induction false} FallbackRoleFromId(a: Accounts, username: string, i: nat)
    requires !IsEmergencyName(username)
    requires i < |a.users| && NameMatches(a.users[i], username)
    requires forall j :: 0 <= j < i ==> !NameMatches(a.users[j], username)
    requires forall j :: 0 <= j < |a.users| && NameMatches(a.users[j], username) ==> a.users[j].roleId !in a.roles
    ensures LoadUser(a, username) == Some(ToUser(a.users[i], RoleFromId(a.users[i].roleId)))
  {
    var j := FirstWhere(a.users, (row: UserRow) => Joins(a, row, username));
    var k := FirstWhere(a.users, (row: UserRow) => NameMatches(row, username));
  }

  /** The join path decides when the first row that joins with `roles` carries
      a role name createUserFromRole knows: that row is loaded with that role. */
  lemma {:induction false} JoinPathRole(a: Accounts, username: string, i: nat)
    requires i < |a.users| && Joins(a, a.users[i], username)
    requires forall k :: 0 <= k < i ==> !Joins(a, a.users[k], username)
    requires RoleFromName(a.roles[a.users[i].roleId]).Some?
    ensures var role := RoleFromName(a.roles[a.users[i].roleId]).value;
      && LookupRow(a, username) == Some(Match(i, role))
      && (!IsEmergencyName(username) ==> LoadUser(a, username) == Some(ToUser(a.users[i], role)))
  {
    var j := FirstWhere(a.users, (row: UserRow) => Joins(a, row, username));
  }

  /** When the first row that joins with `roles` carries a role name
      createUserFromRole does not know, its `Unknown role` error sends the
      lookup to the direct query: the first row whose name matches is loaded,
      with the role its `role_id` maps to. That row need not be the joining
      one: a case variant of its name further down may be. */
  lemma {:induction false} UnknownRoleNameFallsBack(a: Accounts, username: string, i: nat, j: nat)
    requires !IsEmergencyName(username)
    requires i < |a.users| && NameMatches(a.users[i], username)
    requires forall k :: 0 <= k < i ==> !NameMatches(a.users[k], username)
    requires j < |a.users| && Joins(a, a.users[j], username)
    requires forall k :: 0 <= k < j ==> !Joins(a, a.users[k], username)
    requires RoleFromName(a.roles[a.users[j].roleId]).None?
    ensures LoadUser(a, username) == Some(ToUser(a.users[i], RoleFromId(a.users[i].roleId)))
  {
    var joined := FirstWhere(a.users, (row: UserRow) => Joins(a, row, username));
    assert joined == Some(j);
    var direct := DirectRow(a, username);
    assert direct == Some(Match(i, RoleFromId(a.users[i].roleId)));
  }

  /** "Bob" with an unknown role id 7 comes first; its case variant "bob"
      joins to the role name "Intern". The join path fails on "Intern" and the
      direct query loads "Bob" as a Salesperson. */
  lemma CaseVariantJoinsUnknownRole()
    ensures var bob := UserRow(1, "Bob", "pw", 7, "Bob", "b@x", "1", 1, 0, 0);
      var other := UserRow(2, "bob", "pw2", 4, "Rob", "r@x", "2", 1, 0, 0);
      var a := Accounts([bob, other], map[4 := "Intern"], map[], {});
      LoadUser(a, "bob") == Some(ToUser(bob, Salesperson))
  {
    var bob := UserRow(1, "Bob", "pw", 7, "Bob", "b@x", "1", 1, 0, 0);
    var other := UserRow(2, "bob", "pw2", 4, "Rob", "r@x", "2", 1, 0, 0);
    var a := Accounts([bob, other], map[4 := "Intern"], map[], {});
    assert !IsEmergencyName("bob") by {
      assert JavaFold("bob"[0]) != "admin"[0];
    }
    assert NameMatches(bob, "bob") by {
      assert LowerStr("Bob") == "bob";
      assert LowerStr("bob") == "bob";
    }
    assert Joins(a, other, "bob") by {
      assert LowerStr("bob") == "bob";
    }
    UnknownRoleNameFallsBack(a, "bob", 0, 1);
  }
}

=== FILE: admin_ops.dfy ===
/**
 * The account operations of the Admin dashboard's Employee List window:
 * toggling a user's active status, rewriting a user's permission grants, and
 * the guards in front of profile creation and permission editing.
 *
 * `User.loadUser`, which these operations call, is not part of this model; it
 * is taken to be the table part of the login lookup (the join with `roles`,
 * then the direct query), without the built-in emergency administrator.
 */
module AdminOps {
  import opened Base
  import opened AccountStore

  // ---------------------------------------------------------------------------
  // toggleActiveStatus
  // ---------------------------------------------------------------------------

  /** Where, if anywhere, a toggle throws: `User.loadUser`, the counter reset
      (attempted only on reactivation), or `Dealership.updateUser`. A throw
      reaches the button's handler, which shows an error dialog. */
  datatype ToggleFault = NoToggleFault | LoadThrows | ResetThrows | UpdateThrows

  datatype ToggleOutcome = Cancelled | UserNotFound | NowActive | NowInactive | ToggleError

  datatype ToggleResult = ToggleResult(store: Accounts, outcome: ToggleOutcome)

  /** The write `Dealership.updateUser` performs for a user object: password,
      name, email, phone and `is_active` of every row with the user's id. */
  function UpdateUser(a: Accounts, u: User): Accounts
  {
    UpdateWhereId(a, u.id, (row: UserRow) =>
      row.(password := u.password, name := u.name, email := u.email, phone := u.phone,
           isActive := if u.isActive then 1 else 0))
  }

  /** One use of "Toggle Active Status"; `input` is None when the dialog is cancelled. */
  function ToggleActive(a: Accounts, input: Option<string>, fault: ToggleFault): (r: ToggleResult)
    ensures input.None? ==> r == ToggleResult(a, Cancelled)
    ensures input.Some? && fault.LoadThrows? ==> r == ToggleResult(a, ToggleError)
    ensures input.Some? && !fault.LoadThrows? && StoreLookup(a, input.value).None? ==> r == ToggleResult(a, UserNotFound)
    ensures r.outcome == ToggleError <==>
      input.Some? &&
      (fault.LoadThrows? ||
       (StoreLookup(a, input.value).Some? &&
        (fault.UpdateThrows? || (fault.ResetThrows? && !StoreLookup(a, input.value).value.isActive))))
    ensures input.Some? && StoreLookup(a, input.value).Some? && r.outcome != ToggleError ==>
      (r.outcome == NowActive <==> !StoreLookup(a, input.value).value.isActive) &&
      (r.outcome == NowInactive <==> StoreLookup(a, input.value).value.isActive)
    ensures fault.ResetThrows? && r.outcome == ToggleError ==> r.store == a
    ensures |r.store.users| == |a.users|
    ensures r.store.roles == a.roles && r.store.permissions == a.permissions && r.store.grants == a.grants
  {
    match input
    case None => ToggleResult(a, Cancelled)
    case Some(username) =>
      if fault.LoadThrows? then ToggleResult(a, ToggleError)
      else match StoreLookup(a, username)
        case None => ToggleResult(a, UserNotFound)
        case Some(u) =>
          var nowActive := !u.isActive;
          if nowActive && fault.ResetThrows? then ToggleResult(a, ToggleError)
          else
            var reset := if nowActive then SetAttempts(a, u.id, 0) else a;
            if fault.UpdateThrows? then ToggleResult(reset, ToggleError)
            else ToggleResult(UpdateUser(reset, u.(isActive := nowActive)),
                              if nowActive then NowActive else NowInactive)
  }

  /** The message shown after a toggle. */
  function ToggleMessage(username: string, outcome: ToggleOutcome): string
  {
    match outcome
    case Cancelled => ""
    case UserNotFound => "User not found!"
    case NowActive => "User " + username + " is now active and login attempts have been reset"
    case NowInactive => "User " + username + " is now inactive"
    case ToggleError => "SQL Error: "   // followed by the driver's message
  }

  /** The message mentions the counter reset exactly when the account was reactivated. */
  lemma ToggleMessageMentionsReset(username: string, outcome: ToggleOutcome)
    ensures EndsWith(ToggleMessage(username, outcome), "have been reset") <==> outcome == NowActive
  {
    var m := ToggleMessage(username, outcome);
    if outcome == NowInactive {
      assert m[|m| - 15..] == m[|m| - 15..|m|];
      assert m[|m| - 1] == 'e';
      assert "have been reset"[14] == 't';
    } else if outcome == NowActive {
      assert m == ("User " + username + " is now active and login attempts ") + "have been reset";
    }
  }

  /** With unique user ids, the row the name found has its active flag flipped,
      its counter zeroed exactly when it became active, its contact columns
      rewritten with their own values, and every other row is left alone. */
  lemma {:induction false} ToggleFlipsOneRow(a: Accounts, username: string)
    requires UniqueUserIds(a)
    requires LookupRow(a, username).Some?
    ensures var i := LookupRow(a, username).value.index;
      var row := a.users[i];
      var b := ToggleActive(a, Some(username), NoToggleFault).store;
      && b.users[i] == row.(isActive := if row.isActive == 1 then 0 else 1,
                            failedAttempts := if row.isActive == 1 then row.failedAttempts else 0)
      && (forall j :: 0 <= j < |a.users| && j != i ==> b.users[j] == a.users[j])
  {
    var i := LookupRow(a, username).value.index;
    forall j | 0 <= j < |a.users| && j != i
      ensures a.users[j].userId != a.users[i].userId
    {
    }
  }

  /** Seen through the status query, a toggled account is active exactly when
      the loaded user was not, and a reactivated account has a zero counter. */
  lemma {:induction false} ToggleStoredStatus(a: Accounts, username: string)
    requires UniqueUserIds(a)
    requires StoreLookup(a, username).Some?
    ensures var u := StoreLookup(a, username).value;
      var b := ToggleActive(a, Some(username), NoToggleFault).store;
      && (StoredActive(b, u.id) <==> !u.isActive)
      && (!u.isActive ==> StoredAttempts(b, u.id) == 0)
      && (u.isActive ==> StoredAttempts(b, u.id) == StoredAttempts(a, u.id))
  {
    var i := LookupRow(a, username).value.index;
    var id := a.users[i].userId;
    ToggleFlipsOneRow(a, username);
    var b := ToggleActive(a, Some(username), NoToggleFault).store;
    var p := (row: UserRow) => row.userId == id;
    FirstWhereAgrees(a.users, p, b.users, p);
    var k := FirstWhere(a.users, p);
    assert k == Some(i) by {
      assert p(a.users[i]);
    }
  }

  /** Toggling, whether or not it throws, leaves names and role ids alone, so
      the same name still loads the same row and role. */
  lemma ToggleKeepsLookup(a: Accounts, input: Option<string>, fault: ToggleFault, username: string)
    ensures LookupRow(ToggleActive(a, input, fault).store, username) == LookupRow(a, username)
  {
    if input.Some? && !fault.LoadThrows? && StoreLookup(a, input.value).Some? {
      var u := StoreLookup(a, input.value).value;
      var reset := if !u.isActive then SetAttempts(a, u.id, 0) else a;
      assert LookupRow(reset, username) == LookupRow(a, username) by {
        UpdateKeepsLookup(a, u.id, (row: UserRow) => row.(failedAttempts := 0), username);
      }
      var v := u.(isActive := !u.isActive);
      assert LookupRow(UpdateUser(reset, v), username) == LookupRow(reset, username) by {
        UpdateKeepsLookup(reset, v.id, (row: UserRow) =>
          row.(password := v.password, name := v.name, email := v.email, phone := v.phone,
               isActive := if v.isActive then 1 else 0), username);
      }
      var b := ToggleActive(a, input, fault).store;
      assert b == a || b == reset || b == UpdateUser(reset, v);
    }
  }

  /** When `updateUser` throws after the reset committed, a locked account
      keeps its stored inactive status but its counter reads 0; an active
      account is left exactly as it was. */
  lemma {:induction false} ToggleUpdateFailure(a: Accounts, username: string)
    requires UniqueUserIds(a)
    requires StoreLookup(a, username).Some?
    ensures var u := StoreLookup(a, username).value;
      var b := ToggleActive(a, Some(username), UpdateThrows).store;
      && (StoredActive(b, u.id) <==> u.isActive)
      && (!u.isActive ==> StoredAttempts(b, u.id) == 0)
      && (u.isActive ==> b == a)
  {
    var i := LookupRow(a, username).value.index;
    var id := a.users[i].userId;
    var b := ToggleActive(a, Some(username), UpdateThrows).store;
    var p := (row: UserRow) => row.userId == id;
    FirstWhereAgrees(a.users, p, b.users, p);
    var k := FirstWhere(a.users, p);
    assert k == Some(i) by {
      assert p(a.users[i]);
    }
  }

  /** Toggling the same account twice restores its active flag. */
  lemma {:induction false} ToggleTwiceRestoresStatus(a: Accounts, username: string)
    requires UniqueUserIds(a)
    requires StoreLookup(a, username).Some?
    ensures var b := ToggleActive(a, Some(username), NoToggleFault).store;
      var c := ToggleActive(b, Some(username), NoToggleFault).store;
      var i := LookupRow(a, username).value.index;
      c.users[i].isActive == (if a.users[i].isActive == 1 then 1 else 0)
  {
    var b := ToggleActive(a, Some(username), NoToggleFault).store;
    ToggleKeepsLookup(a, Some(username), NoToggleFault, username);
    ToggleFlipsOneRow(a, username);
    assert UniqueUserIds(b) by {
      assert forall j :: 0 <= j < |b.users| ==> b.users[j].userId == a.users[j].userId;
    }
    ToggleFlipsOneRow(b, username);
  }

  // ---------------------------------------------------------------------------
  // updatePermissionsInDB
  // ---------------------------------------------------------------------------

  /** The permission names of the edit dialog, in checkbox order. */
  const PermissionNames: seq<string> := [
    "ADD_VEHICLE", "EDIT_VEHICLE", "MANAGE_USERS", "REMOVE_VEHICLE",
    "RESET_PASSWORDS", "SEARCH_VEHICLES", "SELL_VEHICLE", "VIEW_DEALERSHIP_INFO",
    "VIEW_SALES_HISTORY"]

  /** The grants that should exist after replacing `uid`'s grants with the
      checked names that exist in `permissions`. */
  ghost function ReplacedGrants(a: Accounts, uid: int, names: seq<string>, checked: seq<bool>): set<Grant>
    requires |checked| == |names|
  {
    (set g | g in a.grants && g.userId != uid)
    + (set i | 0 <= i < |names| && checked[i] && names[i] in a.permissions :: Grant(uid, a.permissions[names[i]], 1))
  }

  /** Checked names without a `permissions` row, in checkbox order: each one
      produces a "not found in database" dialog. */
  function MissingNames(a: Accounts, names: seq<string>, checked: seq<bool>): (r: seq<string>)
    requires |checked| == |names|
  {
    if names == [] then []
    else (if checked[0] && names[0] !in a.permissions then [names[0]] else [])
         + MissingNames(a, names[1..], checked[1..])
  }

  lemma {:induction false} MissingNamesAppend(a: Accounts, names: seq<string>, checked: seq<bool>, i: nat)
    requires |checked| == |names| && i < |names|
    ensures MissingNames(a, names[..i + 1], checked[..i + 1]) ==
      MissingNames(a, names[..i], checked[..i]) + (if checked[i] && names[i] !in a.permissions then [names[i]] else [])
    decreases i
  {
    if i == 0 {
      assert names[..1][1..] == [] && checked[..1][1..] == [];
    } else {
      assert names[..i + 1][1..] == names[1..][..i];
      assert checked[..i + 1][1..] == checked[1..][..i];
      assert names[..i][1..] == names[1..][..i - 1];
      assert checked[..i][1..] == checked[1..][..i - 1];
      MissingNamesAppend(a, names[1..], checked[1..], i - 1);
    }
  }

  /** Where, if anywhere, the replacement throws: the DELETE, or the SELECT or
      INSERT of the box at `index` (only a checked box runs statements). Each
      statement commits on its own, so what ran before a throw stays. */
  datatype PermissionsFault = NoPermissionsFault | DeleteThrows | BoxThrows(index: nat)

  /** The number of boxes handled before the run stops. */
  function BoxesHandled(checked: seq<bool>, fault: PermissionsFault): (n: nat)
    ensures n <= |checked|
  {
    if fault.BoxThrows? && fault.index < |checked| && checked[fault.index] then fault.index else |checked|
  }

  /** `ReplacedGrants` over the first `n` boxes is the kept grants plus the
      grants those boxes insert. */
  lemma ReplacedGrantsPrefix(a: Accounts, uid: int, names: seq<string>, checked: seq<bool>, n: nat)
    requires |checked| == |names| && n <= |names|
    ensures ReplacedGrants(a, uid, names[..n], checked[..n]) ==
      (set g | g in a.grants && g.userId != uid)
      + (set j | 0 <= j < n && checked[j] && names[j] in a.permissions :: Grant(uid, a.permissions[names[j]], 1))
  {
    assert forall j :: 0 <= j < n ==> names[..n][j] == names[j] && checked[..n][j] == checked[j];
  }

  /** A replacement over a prefix of the boxes grants no more than the full one. */
  lemma ReplacedGrantsGrow(a: Accounts, uid: int, names: seq<string>, checked: seq<bool>, n: nat)
    requires |checked| == |names| && n <= |names|
    ensures ReplacedGrants(a, uid, names[..n], checked[..n]) <= ReplacedGrants(a, uid, names, checked)
  {
    ReplacedGrantsPrefix(a, uid, names, checked, n);
  }

  /** Delete every grant of the user, then insert one enabled grant for each
      checked name that has a permission id; unknown names are reported and
      skipped. A throw ends the run with what committed so far: nothing when
      the DELETE throws, otherwise the DELETE and the grants of the boxes
      before the one that threw. */
  method UpdatePermissions(a: Accounts, uid: int, names: seq<string>, checked: seq<bool>, fault: PermissionsFault)
    returns (r: Accounts, missing: seq<string>, threw: bool)
    requires |checked| == |names|
    ensures threw <==> fault.DeleteThrows? || BoxesHandled(checked, fault) < |names|
    ensures fault.DeleteThrows? ==> r == a && missing == []
    ensures !fault.DeleteThrows? ==>
      var n := BoxesHandled(checked, fault);
      r.grants == ReplacedGrants(a, uid, names[..n], checked[..n]) &&
      missing == MissingNames(a, names[..n], checked[..n])
    ensures !threw ==> r.grants == ReplacedGrants(a, uid, names, checked) && missing == MissingNames(a, names, checked)
    ensures !fault.DeleteThrows? ==> r.grants <= ReplacedGrants(a, uid, names, checked)
    ensures r.users == a.users && r.roles == a.roles && r.permissions == a.permissions
  {
    if fault.DeleteThrows? {
      return a, [], true;
    }
    var grants := set g | g in a.grants && g.userId != uid;
    missing := [];
    var i := 0;
    while i < |names| && !(fault == BoxThrows(i) && checked[i])
      invariant 0 <= i <= BoxesHandled(checked, fault)
      invariant grants == (set g | g in a.grants && g.userId != uid)
        + (set j | 0 <= j < i && checked[j] && names[j] in a.permissions :: Grant(uid, a.permissions[names[j]], 1))
      invariant missing == MissingNames(a, names[..i], checked[..i])
    {
      MissingNamesAppend(a, names, checked, i);
      if checked[i] {
        if names[i] in a.permissions {
          grants := grants + {Grant(uid, a.permissions[names[i]], 1)};
        } else {
          missing := missing + [names[i]];
        }
      }
      i := i + 1;
    }
    threw := i < |names|;
    ReplacedGrantsPrefix(a, uid, names, checked, i);
    ReplacedGrantsGrow(a, uid, names, checked, i);
    assert names[..|names|] == names && checked[..|checked|] == checked;
    r := a.(grants := grants);
  }

  /** The grants of one user after the replacement: exactly the checked names
      present in `permissions`, each enabled; every other user's grants stay. */
  lemma ReplacedGrantsExactly(a: Accounts, uid: int, names: seq<string>, checked: seq<bool>, g: Grant)
    requires |checked| == |names|
    ensures g.userId != uid ==> (g in ReplacedGrants(a, uid, names, checked) <==> g in a.grants)
    ensures g.userId == uid ==>
      (g in ReplacedGrants(a, uid, names, checked) <==>
        g.isEnabled == 1 &&
        exists i :: 0 <= i < |names| && checked[i] && names[i] in a.permissions && a.permissions[names[i]] == g.permissionId)
  {
    if g.userId == uid && g.isEnabled == 1 {
      if i :| 0 <= i < |names| && checked[i] && names[i] in a.permissions && a.permissions[names[i]] == g.permissionId {
        assert g == Grant(uid, a.permissions[names[i]], 1);
      }
    }
  }

  /** The permission names a user holds with an enabled grant. */
  function HeldPermissions(a: Accounts, uid: int): set<string>
  {
    set n | n in a.permissions && Grant(uid, a.permissions[n], 1) in a.grants
  }

  /** Replacing and then reading back gives exactly the checked names that
      exist in `permissions`: nothing else the user held survives. */
  lemma {:induction false} ReplaceThenLoad(a: Accounts, uid: int, names: seq<string>, checked: seq<bool>)
    requires |checked| == |names|
    requires UniquePermissionIds(a)
    ensures HeldPermissions(a.(grants := ReplacedGrants(a, uid, names, checked)), uid) ==
      set i | 0 <= i < |names| && checked[i] && names[i] in a.permissions :: names[i]
  {
    var b := a.(grants := ReplacedGrants(a, uid, names, checked));
    var want := set i | 0 <= i < |names| && checked[i] && names[i] in a.permissions :: names[i];
    forall n | n in HeldPermissions(b, uid)
      ensures n in want
    {
      ReplacedGrantsExactly(a, uid, names, checked, Grant(uid, a.permissions[n], 1));
      var i :| 0 <= i < |names| && checked[i] && names[i] in a.permissions && a.permissions[names[i]] == a.permissions[n];
      assert names[i] == n;
    }
    forall n | n in want
      ensures n in HeldPermissions(b, uid)
    {
      var i :| 0 <= i < |names| && checked[i] && names[i] in a.permissions && names[i] == n;
      ReplacedGrantsExactly(a, uid, names, checked, Grant(uid, a.permissions[n], 1));
    }
  }

  // ---------------------------------------------------------------------------
  // editPermissions
  // ---------------------------------------------------------------------------

  datatype EditOutcome =
    | EditCancelled
    | EditUserNotFound
    | EditUserInactive
    | EditError
    | Checkboxes(user: User, boxes: seq<bool>)

  /** Where the database reads of "Edit Permissions" throw, if at all: the
      user lookup, or the later read of the found user's permissions. Either
      lands in the "Database error: " handler. */
  datatype EditFault = NoEditFault | EditLookupThrows | EditPermissionsThrow

  /** The guard of "Edit Permissions": the dialog opens only for a user that is
      found and active, with each box preset from the user's permission map
      (`currentPerms`, absent names unchecked). A cancelled prompt returns
      before any database read. */
  function EditPermissions(a: Accounts, input: Option<string>, currentPerms: map<string, bool>, fault: EditFault): (r: EditOutcome)
    ensures r == EditCancelled <==> input.None?
    ensures r == EditError <==>
      input.Some? &&
      (fault.EditLookupThrows? ||
       (fault.EditPermissionsThrow? && StoreLookup(a, input.value).Some? && StoreLookup(a, input.value).value.isActive))
    ensures r == EditUserNotFound <==> input.Some? && !fault.EditLookupThrows? && StoreLookup(a, input.value).None?
    ensures r.Checkboxes? <==>
      input.Some? && fault.NoEditFault? && StoreLookup(a, input.value).Some? && StoreLookup(a, input.value).value.isActive
    ensures r == EditUserInactive <==>
      input.Some? && !fault.EditLookupThrows? && StoreLookup(a, input.value).Some? && !StoreLookup(a, input.value).value.isActive
    ensures r.Checkboxes? ==> r.user == StoreLookup(a, input.value).value && |r.boxes| == |PermissionNames|
    ensures r.Checkboxes? ==> forall i :: 0 <= i < |PermissionNames| ==>
      (r.boxes[i] <==> PermissionNames[i] in currentPerms && currentPerms[PermissionNames[i]])
  {
    match input
    case None => EditCancelled
    case Some(username) =>
      if fault.EditLookupThrows? then EditError
      else match StoreLookup(a, username)
        case None => EditUserNotFound
        case Some(u) =>
          if !u.isActive then EditUserInactive
          else if fault.EditPermissionsThrow? then EditError
          else Checkboxes(u, seq(|PermissionNames|, i requires 0 <= i < |PermissionNames| =>
                                  GetOrDefault(currentPerms, PermissionNames[i], false)))
  }

  /** The permission map of a user as read back from the grants. */
  function PermissionsMap(a: Accounts, uid: int): (m: map<string, bool>)
    ensures forall n :: n in m <==> n in HeldPermissions(a, uid)
    ensures forall n :: n in m ==> m[n]
  {
    map n | n in HeldPermissions(a, uid) :: true
  }

  /** Confirming the dialog without changing any box keeps the user's held
      permissions among the nine names of the dialog, and drops any other. */
  lemma {:induction false} ConfirmUnchangedKeepsPermissions(a: Accounts, username: string)
    requires UniquePermissionIds(a)
    requires StoreLookup(a, username).Some? && StoreLookup(a, username).value.isActive
    ensures var u := StoreLookup(a, username).value;
      var e := EditPermissions(a, Some(username), PermissionsMap(a, u.id), NoEditFault);
      HeldPermissions(a.(grants := ReplacedGrants(a, u.id, PermissionNames, e.boxes)), u.id) ==
        HeldPermissions(a, u.id) * set i | 0 <= i < |PermissionNames| :: PermissionNames[i]
  {
    var u := StoreLookup(a, username).value;
    var e := EditPermissions(a, Some(username), PermissionsMap(a, u.id), NoEditFault);
    ReplaceThenLoad(a, u.id, PermissionNames, e.boxes);
    var held := HeldPermissions(a, u.id);
    var got := set i | 0 <= i < |PermissionNames| && e.boxes[i] && PermissionNames[i] in a.permissions :: PermissionNames[i];
    var all := set i | 0 <= i < |PermissionNames| :: PermissionNames[i];
    forall n | n in held * all
      ensures n in got
    {
      var i :| 0 <= i < |PermissionNames| && PermissionNames[i] == n;
    }
  }

  // ---------------------------------------------------------------------------
  // createNewProfile
  // ---------------------------------------------------------------------------

  /** The fields of the "Create New Profile" dialog. */
  datatype ProfileForm = ProfileForm(name: string, email: string, phone: string, role: Role, username: string)

  /** What `Admin.createUser` is asked to store (its own effect is not modelled). */
  datatype NewUser = NewUser(role: Role, username: string, tempPassword: string, name: string, email: string, phone: string)

  datatype ProfileOutcome =
    | OnlyAdmins
    | ProfileCancelled
    | EmptyField
    | UsernameTaken
    | ProfileError
    | CreateUser(request: NewUser)

  /** Where the database calls of createNewProfile throw, if at all: the
      lookup of the requested username, or `createUser` itself. Either
      reaches the caller's "Database error: " handler. */
  datatype ProfileFault = NoProfileFault | ProfileLookupThrows | CreateUserThrows

  predicate Filled(f: ProfileForm)
  {
    f.name != [] && f.email != [] && f.phone != [] && f.username != []
  }

  /** The temporary password: "temp" followed by the clock in milliseconds. */
  function TempPassword(clockMillis: nat): (p: string)
    ensures StartsWith(p, "temp") && |p| > 4
    ensures IsDigits(p[4..]) && DigitsValue(p[4..]) == clockMillis
    ensures clockMillis == 0 || p[4] != '0'
  {
    "temp" + DecimalString(clockMillis)
  }

  /** Profiles created at different clock readings get different temporary passwords. */
  lemma TempPasswordInjective(t1: nat, t2: nat)
    ensures TempPassword(t1) == TempPassword(t2) <==> t1 == t2
  {
    if TempPassword(t1) == TempPassword(t2) {
      assert TempPassword(t1)[4..] == TempPassword(t2)[4..];
    }
  }

  /** The guards of createNewProfile; `form` is None when the dialog is cancelled. */
  function CreateProfile(a: Accounts, actor: User, form: Option<ProfileForm>, clockMillis: nat, fault: ProfileFault): (r: ProfileOutcome)
    ensures actor.role != Admin <==> r == OnlyAdmins
    ensures r == ProfileCancelled <==> actor.role == Admin && form.None?
    ensures r == EmptyField <==> actor.role == Admin && form.Some? && !Filled(form.value)
    ensures r == ProfileError <==>
      actor.role == Admin && form.Some? && Filled(form.value) &&
      (fault.ProfileLookupThrows? || (fault.CreateUserThrows? && StoreLookup(a, form.value.username).None?))
    ensures r == UsernameTaken <==>
      actor.role == Admin && form.Some? && Filled(form.value) && !fault.ProfileLookupThrows? &&
      StoreLookup(a, form.value.username).Some?
    ensures r.CreateUser? <==>
      actor.role == Admin && form.Some? && Filled(form.value) && fault.NoProfileFault? &&
      StoreLookup(a, form.value.username).None?
    ensures r.CreateUser? ==>
      var f := form.value;
      r.request == NewUser(f.role, f.username, TempPassword(clockMillis), f.name, f.email, f.phone)
  {
    if actor.role != Admin then OnlyAdmins
    else match form
      case None => ProfileCancelled
      case Some(f) =>
        if !Filled(f) then EmptyField
        else if fault.ProfileLookupThrows? then ProfileError
        else if StoreLookup(a, f.username).Some? then UsernameTaken
        else if fault.CreateUserThrows? then ProfileError
        else CreateUser(NewUser(f.role, f.username, TempPassword(clockMillis), f.name, f.email, f.phone))
  }

  /** A username that differs from an existing one only in letter case is taken. */
  lemma CaseVariantIsTaken(a: Accounts, actor: User, f: ProfileForm, clockMillis: nat, existing: string)
    requires actor.role == Admin
    requires Filled(f)
    requires StoreLookup(a, existing).Some? && EqualsIgnoreCase(existing, f.username)
    ensures CreateProfile(a, actor, Some(f), clockMillis, NoProfileFault) == UsernameTaken
  {
    FirstWhereAgrees(a.users, (row: UserRow) => NameMatches(row, existing), a.users, (row: UserRow) => NameMatches(row, f.username));
  }
}

=== FILE: base.dfy ===
/**
 * Small value-level helpers shared by the account, inventory and store
 * models: an optional value, the two case-insensitive comparisons of the
 * login lookup (SQLite's `LOWER`, which folds the ASCII letters only, and
 * Java's `String.equalsIgnoreCase` against an ASCII word), prefix tests,
 * decimal rendering of counters and the `getOrDefault` lookup on maps.
 */
module Base {

  datatype Option<T> = None | Some(value: T)

  /** ASCII lower-casing of a single character; every other character is kept. */
  function Lower(c: char): char
  {
    if 'A' <= c <= 'Z' then (c as int + 32) as char else c
  }

  function LowerStr(s: string): (r: string)
    ensures |r| == |s|
    ensures forall i :: 0 <= i < |s| ==> r[i] == Lower(s[i])
  {
    if s == [] then [] else [Lower(s[0])] + LowerStr(s[1..])
  }

  /** SQL `LOWER(x) = LOWER(y)`: both strings fold to the same text under ASCII lower-casing. */
  predicate EqualsIgnoreCase(a: string, b: string)
  {
    LowerStr(a) == LowerStr(b)
  }

  /** Two characters fold to the same character exactly when they are equal
      or are the upper- and lower-case forms of one ASCII letter. */
  lemma LowerCharEquality(c: char, d: char)
    ensures Lower(c) == Lower(d) <==>
      (c == d || (c as int - d as int == 32 && 'a' <= c <= 'z') || (d as int - c as int == 32 && 'a' <= d <= 'z'))
  {
  }

  /** Case-insensitive equality relates strings of the same length that agree
      position by position up to letter case. */
  lemma EqualsIgnoreCaseCharwise(a: string, b: string)
    ensures EqualsIgnoreCase(a, b) <==> |a| == |b| && forall i :: 0 <= i < |a| ==> Lower(a[i]) == Lower(b[i])
  {
    if |a| == |b| && forall i :: 0 <= i < |a| ==> Lower(a[i]) == Lower(b[i]) {
      assert forall i :: 0 <= i < |a| ==> LowerStr(a)[i] == LowerStr(b)[i];
    }
  }

  /** The ASCII lower-case letter Java's case-insensitive comparison takes a
      character to be, where there is one: an ASCII letter of either case, or
      one of the four characters whose upper- or lower-case form is an ASCII
      letter (dotless U+0131 and dotted U+0130 for i, long s U+017F for s, the
      Kelvin sign U+212A for k). Every other character is kept. */
  function JavaFold(c: char): char
  {
    if c == '\U{0131}' || c == '\U{0130}' then 'i'
    else if c == '\U{017F}' then 's'
    else if c == '\U{212A}' then 'k'
    else Lower(c)
  }

  predicate IsLowerAsciiWord(t: string)
  {
    forall i :: 0 <= i < |t| ==> 'a' <= t[i] <= 'z'
  }

  /** `s.equalsIgnoreCase(t)` for a word `t` of ASCII lower-case letters: the
      same length, and each character of `s` equal to `t`'s after converting
      both to upper case, or after converting those to lower case. */
  predicate JavaEqualsIgnoreCase(s: string, t: string)
    requires IsLowerAsciiWord(t)
  {
    |s| == |t| && forall i :: 0 <= i < |s| ==> JavaFold(s[i]) == t[i]
  }

  /** Names equal under SQL's ASCII folding are equal or unequal to an ASCII
      word alike under Java's folding. */
  lemma {:induction false} JavaFoldRespectsLower(s1: string, s2: string, t: string)
    requires IsLowerAsciiWord(t)
    requires EqualsIgnoreCase(s1, s2)
    ensures JavaEqualsIgnoreCase(s1, t) <==> JavaEqualsIgnoreCase(s2, t)
  {
    EqualsIgnoreCaseCharwise(s1, s2);
    forall i | 0 <= i < |s1|
      ensures JavaFold(s1[i]) == JavaFold(s2[i])
    {
      LowerCharEquality(s1[i], s2[i]);
    }
  }

  /** Every ASCII spelling of an ASCII word passes Java's comparison, and so do
      more: Java's folding extends SQL's. */
  lemma {:induction false} LowerImpliesJavaEquals(s: string, t: string)
    requires IsLowerAsciiWord(t)
    ensures EqualsIgnoreCase(s, t) ==> JavaEqualsIgnoreCase(s, t)
  {
    EqualsIgnoreCaseCharwise(s, t);
    assert forall i :: 0 <= i < |t| ==> Lower(t[i]) == t[i];
  }

  predicate StartsWith(s: string, prefix: string)
  {
    |prefix| <= |s| && s[..|prefix|] == prefix
  }

  predicate EndsWith(s: string, suffix: string)
  {
    |suffix| <= |s| && s[|s| - |suffix|..] == suffix
  }

  function Digit(d: nat): (c: char)
    requires d < 10
    ensures '0' <= c <= '9'
  {
    ('0' as int + d) as char
  }

  predicate IsDigits(s: string)
  {
    forall i :: 0 <= i < |s| ==> '0' <= s[i] <= '9'
  }

  /** The number a string of decimal digits denotes, read left to right. */
  function DigitsValue(s: string): nat
    requires IsDigits(s)
    decreases |s|
  {
    if s == [] then 0 else 10 * DigitsValue(s[..|s| - 1]) + (s[|s| - 1] as int - '0' as int)
  }

  /** Decimal rendering of a natural number, as Java's string concatenation
      prints an int: digits denoting `n`, without a leading zero. */
  function DecimalString(n: nat): (r: string)
    ensures |r| >= 1 && IsDigits(r)
    ensures DigitsValue(r) == n
    ensures n == 0 || r[0] != '0'
    decreases n
  {
    if n < 10 then [Digit(n)]
    else
      var init := DecimalString(n / 10);
      assert (init + [Digit(n % 10)])[..|init|] == init;
      init + [Digit(n % 10)]
  }

  /** Two numbers print alike only when they are equal. */
  lemma DecimalStringInjective(m: nat, n: nat)
    ensures DecimalString(m) == DecimalString(n) <==> m == n
  {
  }

  /** `Map.getOrDefault`: the stored value when the key is present, else the default. */
  function GetOrDefault<K, V>(m: map<K, V>, k: K, default: V): (r: V)
    ensures k in m ==> r == m[k]
    ensures k !in m ==> r == default
  {
    if k in m then m[k] else default
  }
}

=== FILE: dashboards.dfy ===
/**
 * Which buttons each role's dashboard creates. The Admin dashboard creates
 * every button unconditionally; the Manager and Salesperson dashboards create
 * a button only when the user's permission map grants it, with a per-button
 * default for permissions absent from the map.
 */
module Dashboards {
  import opened Base
  import opened AccountStore

  datatype Button =
    | LogOut
    | Search
    | AddVehicle
    | SellVehicle
    | RemoveVehicle
    | EditVehicle
    | SalesHistory
    | CreateProfile
    | EmployeeList
    | PasswordManagement
    | DealershipInfo
    | TestMode

  /** The Admin dashboard, in creation order. */
  const AdminButtons: seq<Button> := [
    LogOut, Search, AddVehicle, SellVehicle, RemoveVehicle, EditVehicle, SalesHistory,
    CreateProfile, EmployeeList, PasswordManagement, DealershipInfo, TestMode]

  /** One permission-gated button: created when the map says so, or when the
      name is absent and the default says so. */
  function Gate(perms: map<string, bool>, permission: string, default: bool, b: Button): (r: seq<Button>)
    ensures r == [b] || r == []
    ensures r == [b] <==> GetOrDefault(perms, permission, default)
  {
    if GetOrDefault(perms, permission, default) then [b] else []
  }

  function ManagerButtons(perms: map<string, bool>): seq<Button>
  {
    [LogOut]
    + Gate(perms, "SEARCH_VEHICLES", true, Search)
    + Gate(perms, "ADD_VEHICLE", false, AddVehicle)
    + Gate(perms, "SELL_VEHICLE", false, SellVehicle)
    + Gate(perms, "REMOVE_VEHICLE", false, RemoveVehicle)
    + Gate(perms, "EDIT_VEHICLE", false, EditVehicle)
    + Gate(perms, "VIEW_SALES_HISTORY", false, SalesHistory)
    + Gate(perms, "VIEW_DEALERSHIP_INFO", false, DealershipInfo)
  }

  function SalespersonButtons(perms: map<string, bool>): seq<Button>
  {
    [LogOut]
    + Gate(perms, "ADD_VEHICLE", false, AddVehicle)
    + Gate(perms, "SELL_VEHICLE", false, SellVehicle)
    + Gate(perms, "REMOVE_VEHICLE", false, RemoveVehicle)
    + Gate(perms, "SEARCH_VEHICLES", false, Search)
    + Gate(perms, "VIEW_SALES_HISTORY", false, SalesHistory)
  }

  /** The buttons of the dashboard a user of `role` with permission map `perms` sees. */
  function Dashboard(role: Role, perms: map<string, bool>): seq<Button>
  {
    match role
    case Admin => AdminButtons
    case Manager => ManagerButtons(perms)
    case Salesperson => SalespersonButtons(perms)
  }

  // ---------------------------------------------------------------------------
  // Reference description of the gating
  // ---------------------------------------------------------------------------

  /** The permission that gates a button on the Manager and Salesperson dashboards. */
  function Permission(b: Button): Option<string>
  {
    match b
    case Search => Some("SEARCH_VEHICLES")
    case AddVehicle => Some("ADD_VEHICLE")
    case SellVehicle => Some("SELL_VEHICLE")
    case RemoveVehicle => Some("REMOVE_VEHICLE")
    case EditVehicle => Some("EDIT_VEHICLE")
    case SalesHistory => Some("VIEW_SALES_HISTORY")
    case DealershipInfo => Some("VIEW_DEALERSHIP_INFO")
    case _ => None
  }

  /** Buttons a role's dashboard code mentions at all. */
  predicate Offers(role: Role, b: Button)
  {
    match role
    case Admin => true
    case Manager => b in {LogOut, Search, AddVehicle, SellVehicle, RemoveVehicle, EditVehicle, SalesHistory, DealershipInfo}
    case Salesperson => b in {LogOut, Search, AddVehicle, SellVehicle, RemoveVehicle, SalesHistory}
  }

  /** Only the Manager's Search button is shown when its permission is absent. */
  predicate ShownByDefault(role: Role, b: Button)
  {
    role == Manager && b == Search
  }

  /** A button is shown when the role offers it and it is either ungated, on the
      Admin dashboard, or granted by the map (with the default for absent names). */
  predicate Shows(role: Role, perms: map<string, bool>, b: Button)
  {
    Offers(role, b) &&
    (role == Admin || Permission(b).None? || GetOrDefault(perms, Permission(b).value, ShownByDefault(role, b)))
  }

  /** The dashboard holds exactly the buttons the reference description shows. */
  lemma DashboardShowsExactly(role: Role, perms: map<string, bool>, b: Button)
    ensures b in Dashboard(role, perms) <==> Shows(role, perms, b)
  {
    match role
    case Admin =>
    case Manager => ManagerMembership(perms, b);
    case Salesperson => SalespersonMembership(perms, b);
  }

  lemma ManagerMembership(perms: map<string, bool>, b: Button)
    ensures b in ManagerButtons(perms) <==> Shows(Manager, perms, b)
  {
    var g1 := Gate(perms, "SEARCH_VEHICLES", true, Search);
    var g2 := Gate(perms, "ADD_VEHICLE", false, AddVehicle);
    var g3 := Gate(perms, "SELL_VEHICLE", false, SellVehicle);
    var g4 := Gate(perms, "REMOVE_VEHICLE", false, RemoveVehicle);
    var g5 := Gate(perms, "EDIT_VEHICLE", false, EditVehicle);
    var g6 := Gate(perms, "VIEW_SALES_HISTORY", false, SalesHistory);
    var g7 := Gate(perms, "VIEW_DEALERSHIP_INFO", false, DealershipInfo);
    assert ManagerButtons(perms) == [LogOut] + g1 + g2 + g3 + g4 + g5 + g6 + g7;
    assert b in ManagerButtons(perms) <==>
      b == LogOut || b in g1 || b in g2 || b in g3 || b in g4 || b in g5 || b in g6 || b in g7;
  }

  lemma SalespersonMembership(perms: map<string, bool>, b: Button)
    ensures b in SalespersonButtons(perms) <==> Shows(Salesperson, perms, b)
  {
    var g1 := Gate(perms, "ADD_VEHICLE", false, AddVehicle);
    var g2 := Gate(perms, "SELL_VEHICLE", false, SellVehicle);
    var g3 := Gate(perms, "REMOVE_VEHICLE", false, RemoveVehicle);
    var g4 := Gate(perms, "SEARCH_VEHICLES", false, Search);
    var g5 := Gate(perms, "VIEW_SALES_HISTORY", false, SalesHistory);
    assert SalespersonButtons(perms) == [LogOut] + g1 + g2 + g3 + g4 + g5;
    assert b in SalespersonButtons(perms) <==> b == LogOut || b in g1 || b in g2 || b in g3 || b in g4 || b in g5;
  }

  /** Position of a button in the order a role's dashboard code creates them
      (Search comes after Remove Vehicle on the Salesperson dashboard). */
  function Rank(role: Role, b: Button): nat
  {
    match b
    case LogOut => 0
    case Search => if role == Salesperson then 5 else 1
    case AddVehicle => 2
    case SellVehicle => 3
    case RemoveVehicle => 4
    case EditVehicle => 5
    case SalesHistory => 6
    case CreateProfile => 7
    case EmployeeList => 8
    case PasswordManagement => 9
    case DealershipInfo => 10
    case TestMode => 11
  }

  predicate InCreationOrder(role: Role, d: seq<Button>)
  {
    forall i, j :: 0 <= i < j < |d| ==> Rank(role, d[i]) < Rank(role, d[j])
  }

  lemma {:induction false} ExtendInOrder(role: Role, d: seq<Button>, g: seq<Button>, b: Button)
    requires InCreationOrder(role, d)
    requires forall x :: x in d ==> Rank(role, x) < Rank(role, b)
    requires g == [b] || g == []
    ensures InCreationOrder(role, d + g)
    ensures forall x :: x in d + g ==> Rank(role, x) <= Rank(role, b)
  {
    if g == [b] {
      forall i, j | 0 <= i < j < |d + g|
        ensures Rank(role, (d + g)[i]) < Rank(role, (d + g)[j])
      {
        if j == |d| {
          assert (d + g)[i] in d;
        }
      }
    }
  }

  /** The buttons are created in the dashboard's fixed order, so none appears twice. */
  lemma {:induction false} DashboardInCreationOrder(role: Role, perms: map<string, bool>)
    ensures InCreationOrder(role, Dashboard(role, perms))
    ensures var d := Dashboard(role, perms);
      forall i, j :: 0 <= i < j < |d| ==> d[i] != d[j]
  {
    var d := Dashboard(role, perms);
    match role
    case Admin =>
    case Manager =>
      var d1 := [LogOut];
      var d2 := d1 + Gate(perms, "SEARCH_VEHICLES", true, Search);
      ExtendInOrder(role, d1, d2[|d1|..], Search);
      assert d1 + d2[|d1|..] == d2;
      var d3 := d2 + Gate(perms, "ADD_VEHICLE", false, AddVehicle);
      ExtendInOrder(role, d2, Gate(perms, "ADD_VEHICLE", false, AddVehicle), AddVehicle);
      var d4 := d3 + Gate(perms, "SELL_VEHICLE", false, SellVehicle);
      ExtendInOrder(role, d3, Gate(perms, "SELL_VEHICLE", false, SellVehicle), SellVehicle);
      var d5 := d4 + Gate(perms, "REMOVE_VEHICLE", false, RemoveVehicle);
      ExtendInOrder(role, d4, Gate(perms, "REMOVE_VEHICLE", false, RemoveVehicle), RemoveVehicle);
      var d6 := d5 + Gate(perms, "EDIT_VEHICLE", false, EditVehicle);
      ExtendInOrder(role, d5, Gate(perms, "EDIT_VEHICLE", false, EditVehicle), EditVehicle);
      var d7 := d6 + Gate(perms, "VIEW_SALES_HISTORY", false, SalesHistory);
      ExtendInOrder(role, d6, Gate(perms, "VIEW_SALES_HISTORY", false, SalesHistory), SalesHistory);
      ExtendInOrder(role, d7, Gate(perms, "VIEW_DEALERSHIP_INFO", false, DealershipInfo), DealershipInfo);
    case Salesperson =>
      var d1 := [LogOut];
      var d2 := d1 + Gate(perms, "ADD_VEHICLE", false, AddVehicle);
      ExtendInOrder(role, d1, Gate(perms, "ADD_VEHICLE", false, AddVehicle), AddVehicle);
      var d3 := d2 + Gate(perms, "SELL_VEHICLE", false, SellVehicle);
      ExtendInOrder(role, d2, Gate(perms, "SELL_VEHICLE", false, SellVehicle), SellVehicle);
      var d4 := d3 + Gate(perms, "REMOVE_VEHICLE", false, RemoveVehicle);
      ExtendInOrder(role, d3, Gate(perms, "REMOVE_VEHICLE", false, RemoveVehicle), RemoveVehicle);
      var d5 := d4 + Gate(perms, "SEARCH_VEHICLES", false, Search);
      ExtendInOrder(role, d4, Gate(perms, "SEARCH_VEHICLES", false, Search), Search);
      ExtendInOrder(role, d5, Gate(perms, "VIEW_SALES_HISTORY", false, SalesHistory), SalesHistory);
  }

  /** A user with an empty permission map: the Manager still gets Search, the
      Salesperson gets nothing but the logout button. */
  lemma EmptyPermissionMaps()
    ensures Dashboard(Manager, map[]) == [LogOut, Search]
    ensures Dashboard(Salesperson, map[]) == [LogOut]
    ensures |Dashboard(Admin, map[])| == 12
  {
  }

  /** Granting every permission shows the Manager and Salesperson all the
      buttons their dashboards offer, and never an Admin-only one. */
  lemma FullPermissionMaps(role: Role, perms: map<string, bool>, b: Button)
    requires forall c: Button :: Permission(c).Some? ==> Permission(c).value in perms && perms[Permission(c).value]
    ensures b in Dashboard(role, perms) <==> Offers(role, b)
    ensures role != Admin && b in {CreateProfile, EmployeeList, PasswordManagement, TestMode} ==> b !in Dashboard(role, perms)
  {
    DashboardShowsExactly(role, perms, b);
  }
}

=== FILE: inventory.dfy ===
/**
 * The in-memory inventory of a dealership: a fixed-capacity array of vehicle
 * slots filled from the front (`nv` of them in use), a sales array twice as
 * long (`ns` in use) and a watermark `nextId` above every vehicle id seen.
 *
 * Arrays are sequences of optional values (`None` is Java's null); every
 * operation takes the dealership and returns the new one. The persistence
 * calls each operation makes are reduced to their outcome, given as a
 * parameter: whether a statement throws, and which id the store generated.
 * Prices are whole numbers, since the operations only compare them.
 */
module Inventory {
  import opened Base

  datatype Vehicle =
    | Car(id: int, make: string, model: string, color: string, year: int, price: int, carType: string)
    | Motorcycle(id: int, make: string, model: string, color: string, year: int, price: int, handlebarType: string)

  datatype Sale = Sale(vehicle: Vehicle, buyerName: string, buyerContact: string, date: string)

  datatype Dealership = Dealership(
    inventory: seq<Option<Vehicle>>,
    nv: int,
    sales: seq<Option<Sale>>,
    ns: int,
    nextId: int)

  /** The vehicle slots in use are exactly the first `nv`. */
  predicate StockValid(d: Dealership)
  {
    && 0 <= d.nv <= |d.inventory|
    && (forall i :: 0 <= i < |d.inventory| ==> (d.inventory[i].Some? <==> i < d.nv))
  }

  /** The sales slots in use are exactly the first `ns`. */
  predicate SalesValid(d: Dealership)
  {
    && 0 <= d.ns <= |d.sales|
    && (forall i :: 0 <= i < |d.sales| ==> (d.sales[i].Some? <==> i < d.ns))
  }

  predicate Valid(d: Dealership)
  {
    StockValid(d) && SalesValid(d)
  }

  /** The vehicles in stock, in slot order. */
  function Contents(d: Dealership): (c: seq<Vehicle>)
    requires StockValid(d)
    ensures |c| == d.nv
    ensures forall i :: 0 <= i < d.nv ==> d.inventory[i] == Some(c[i])
  {
    seq(d.nv, i requires 0 <= i < d.nv => d.inventory[i].value)
  }

  /** The recorded sales, in order. */
  function SalesLog(d: Dealership): (s: seq<Sale>)
    requires SalesValid(d)
    ensures |s| == d.ns
    ensures forall i :: 0 <= i < d.ns ==> d.sales[i] == Some(s[i])
  {
    seq(d.ns, i requires 0 <= i < d.ns => d.sales[i].value)
  }

  /** A new dealership for `maxInventory` vehicles; the sales array is twice as long. */
  function NewDealership(maxInventory: nat): (d: Dealership)
    ensures Valid(d) && Contents(d) == [] && SalesLog(d) == []
    ensures IsEmpty(d) && (IsFull(d) <==> maxInventory == 0)
    ensures |d.inventory| == maxInventory && |d.sales| == 2 * maxInventory
    ensures d.nextId == 1
  {
    Dealership(seq(maxInventory, _ => None), 0, seq(2 * maxInventory, _ => None), 0, 1)
  }

  /** isFull: with the slots in use at the front, the count reaches the
      capacity exactly when no slot is free. */
  function IsFull(d: Dealership): (full: bool)
    ensures StockValid(d) ==> (full <==> forall i :: 0 <= i < |d.inventory| ==> d.inventory[i].Some?)
  {
    assert StockValid(d) && d.nv < |d.inventory| ==> d.inventory[d.nv].None?;
    d.nv == |d.inventory|
  }

  /** isEmpty: with the slots in use at the front, the count is zero exactly
      when nothing is in stock. */
  function IsEmpty(d: Dealership): (empty: bool)
    ensures StockValid(d) ==> (empty <==> Contents(d) == [])
    ensures StockValid(d) ==> (empty <==> forall i :: 0 <= i < |d.inventory| ==> d.inventory[i].None?)
  {
    assert StockValid(d) && d.nv > 0 ==> d.inventory[0].Some?;
    d.nv == 0
  }

  predicate HasId(slot: Option<Vehicle>, id: int)
  {
    slot.Some? && slot.value.id == id
  }

  // ---------------------------------------------------------------------------
  // Lookup by id
  // ---------------------------------------------------------------------------

  /** getIndexFromId: the first slot in use holding a vehicle with that id, or -1. */
  method IndexOfId(d: Dealership, id: int) returns (index: int)
    requires 0 <= d.nv <= |d.inventory|
    ensures -1 <= index < d.nv
    ensures index == -1 <==> forall j :: 0 <= j < d.nv ==> !HasId(d.inventory[j], id)
    ensures index >= 0 ==> HasId(d.inventory[index], id) && forall j :: 0 <= j < index ==> !HasId(d.inventory[j], id)
  {
    var i := 0;
    while i < d.nv
      invariant 0 <= i <= d.nv
      invariant forall j :: 0 <= j < i ==> !HasId(d.inventory[j], id)
    {
      if d.inventory[i].Some? && d.inventory[i].value.id == id {
        return i;
      }
      i := i + 1;
    }
    return -1;
  }

  /** getVehicleFromId: the vehicle getIndexFromId would point at, or null. */
  method VehicleById(d: Dealership, id: int) returns (v: Option<Vehicle>)
    requires 0 <= d.nv <= |d.inventory|
    ensures v.None? <==> forall j :: 0 <= j < d.nv ==> !HasId(d.inventory[j], id)
    ensures v.Some? ==>
      && v.value.id == id
      && exists i :: 0 <= i < d.nv && d.inventory[i] == v && forall j :: 0 <= j < i ==> !HasId(d.inventory[j], id)
  {
    var i := 0;
    while i < d.nv
      invariant 0 <= i <= d.nv
      invariant forall j :: 0 <= j < i ==> !HasId(d.inventory[j], id)
    {
      if d.inventory[i].Some? && d.inventory[i].value.id == id {
        return d.inventory[i];
      }
      i := i + 1;
    }
    return None;
  }

  // ---------------------------------------------------------------------------
  // Removal and the shift-down it shares with the rollback of an addition
  // ---------------------------------------------------------------------------

  /** Move the slots after `from` one place down and clear the last slot in use. */
  method ShiftDown(inv: seq<Option<Vehicle>>, from: int, nv: int) returns (r: seq<Option<Vehicle>>)
    requires 0 <= from < nv <= |inv|
    ensures |r| == |inv|
    ensures forall j :: 0 <= j < from ==> r[j] == inv[j]
    ensures forall j :: from <= j < nv - 1 ==> r[j] == inv[j + 1]
    ensures r[nv - 1] == None
    ensures forall j :: nv <= j < |inv| ==> r[j] == inv[j]
  {
    r := inv;
    var i := from;
    while i < nv - 1
      invariant from <= i <= nv - 1
      invariant |r| == |inv|
      invariant forall j :: 0 <= j < from ==> r[j] == inv[j]
      invariant forall j :: from <= j < i ==> r[j] == inv[j + 1]
      invariant forall j :: i <= j < |inv| ==> r[j] == inv[j]
    {
      r := r[i := r[i + 1]];
      i := i + 1;
    }
    r := r[nv - 1 := None];
  }

  /** Shifting down at `from` removes exactly the vehicle at `from` from the contents. */
  lemma {:induction false} ShiftDownContents(d: Dealership, inv: seq<Option<Vehicle>>, from: int)
    requires Valid(d) && 0 <= from < d.nv
    requires |inv| == |d.inventory|
    requires forall j :: 0 <= j < from ==> inv[j] == d.inventory[j]
    requires forall j :: from <= j < d.nv - 1 ==> inv[j] == d.inventory[j + 1]
    requires inv[d.nv - 1] == None
    requires forall j :: d.nv <= j < |inv| ==> inv[j] == d.inventory[j]
    ensures Valid(d.(inventory := inv, nv := d.nv - 1))
    ensures Contents(d.(inventory := inv, nv := d.nv - 1)) == Contents(d)[..from] + Contents(d)[from + 1..]
  {
    var e := d.(inventory := inv, nv := d.nv - 1);
    forall j | 0 <= j < |inv|
      ensures inv[j].Some? <==> j < e.nv
    {
      if from <= j < d.nv - 1 {
        assert d.inventory[j + 1].Some?;
      }
    }
    var c := Contents(d);
    forall j | 0 <= j < e.nv
      ensures Contents(e)[j] == (c[..from] + c[from + 1..])[j]
    {
      if j >= from {
        assert inv[j] == d.inventory[j + 1];
      }
    }
  }

  datatype RemoveOutcome = Removed(index: nat) | NotRemoved | RemoveThrew

  /** removeVehicle: find the vehicle by id, delete its row, then close the gap.
      `deleteFails` is whether the DELETE statement throws. */
  method RemoveVehicle(d: Dealership, vehicle: Option<Vehicle>, deleteFails: bool)
    returns (r: Dealership, outcome: RemoveOutcome)
    requires Valid(d)
    ensures Valid(r)
    ensures outcome == NotRemoved <==>
      vehicle.None? || forall j :: 0 <= j < d.nv ==> !HasId(d.inventory[j], vehicle.value.id)
    ensures outcome == RemoveThrew <==>
      vehicle.Some? && deleteFails && exists j :: 0 <= j < d.nv && HasId(d.inventory[j], vehicle.value.id)
    ensures !outcome.Removed? ==> r == d
    ensures outcome.Removed? ==>
      var k := outcome.index;
      && k < d.nv && HasId(d.inventory[k], vehicle.value.id)
      && (forall j :: 0 <= j < k ==> !HasId(d.inventory[j], vehicle.value.id))
      && Contents(r) == Contents(d)[..k] + Contents(d)[k + 1..]
      && r.nv == d.nv - 1 && !IsFull(r)
      && r.sales == d.sales && r.ns == d.ns && r.nextId == d.nextId
  {
    if vehicle.None? {
      return d, NotRemoved;
    }
    var index := IndexOfId(d, vehicle.value.id);
    if index == -1 {
      return d, NotRemoved;
    }
    if deleteFails {
      return d, RemoveThrew;
    }
    var inv := ShiftDown(d.inventory, index, d.nv);
    ShiftDownContents(d, inv, index);
    r := d.(inventory := inv, nv := d.nv - 1);
    outcome := Removed(index);
  }

  // ---------------------------------------------------------------------------
  // Addition with rollback
  // ---------------------------------------------------------------------------

  /** What the store does with the INSERT and the `last_insert_rowid()` query. */
  datatype Persist =
    | InsertFails        // the INSERT throws
    | IdQueryFails       // the INSERT succeeds, the id query throws
    | NoIdRow            // the id query returns no row
    | GeneratedId(gid: int)

  datatype AddOutcome = Full | Added | AddThrew

  /** The copy kept in the inventory, with the generated id when there is one. */
  function StoredCopy(v: Vehicle, persist: Persist): (c: Vehicle)
    ensures persist.GeneratedId? ==> c.id == persist.gid
    ensures !persist.GeneratedId? ==> c == v
    ensures c.Car? == v.Car? && c.price == v.price
  {
    if persist.GeneratedId? then v.(id := persist.gid) else v
  }

  /** addVehicle: append a copy, persist it, take the generated id and raise the
      watermark above it; if persisting throws, close the slot again. */
  method AddVehicle(d: Dealership, v: Vehicle, persist: Persist) returns (r: Dealership, outcome: AddOutcome)
    requires Valid(d)
    ensures Valid(r)
    ensures outcome == Full <==> IsFull(d)
    ensures outcome == AddThrew <==> !IsFull(d) && (persist == InsertFails || persist == IdQueryFails)
    ensures outcome != Added ==> r == d
    ensures outcome == Added ==>
      && Contents(r) == Contents(d) + [StoredCopy(v, persist)]
      && !IsEmpty(r)
      && r.sales == d.sales && r.ns == d.ns
      && r.nextId >= d.nextId
      && (persist.GeneratedId? ==> r.nextId > persist.gid && (r.nextId == d.nextId || r.nextId == persist.gid + 1))
      && (!persist.GeneratedId? ==> r.nextId == d.nextId)
  {
    if d.nv == |d.inventory| {
      return d, Full;
    }
    var vehicleIndex := d.nv;
    var inv := d.inventory[d.nv := Some(v)];
    var nv := d.nv + 1;
    if persist == InsertFails || persist == IdQueryFails {
      if vehicleIndex < nv {
        inv := ShiftDown(inv, vehicleIndex, nv);
        nv := nv - 1;
      }
      assert forall j :: 0 <= j < |inv| ==> inv[j] == d.inventory[j];
      assert inv == d.inventory;
      return d, AddThrew;
    }
    var nextId := d.nextId;
    if persist.GeneratedId? {
      inv := inv[vehicleIndex := Some(v.(id := persist.gid))];
      if persist.gid >= nextId {
        nextId := persist.gid + 1;
      }
    }
    r := Dealership(inv, nv, d.sales, d.ns, nextId);
    assert Valid(r);
    assert Contents(r) == Contents(d) + [StoredCopy(v, persist)] by {
      assert forall j :: 0 <= j < d.nv ==> Contents(r)[j] == Contents(d)[j];
    }
    outcome := Added;
  }

  // ---------------------------------------------------------------------------
  // Selling
  // ---------------------------------------------------------------------------

  /** `sales[ns++] = sale` as Java evaluates it: the counter is incremented
      before the store into the array is bounds-checked, so a full sales array
      throws with `ns` already past its length. The flag is whether it threw. */
  function RecordSaleAsWritten(d: Dealership, sale: Sale): (r: (Dealership, bool))
    ensures r.0.ns == d.ns + 1
    ensures r.1 <==> !(0 <= d.ns < |d.sales|)
    ensures !r.1 ==> r.0.sales == d.sales[d.ns := Some(sale)]
    ensures r.1 ==> r.0.sales == d.sales
    ensures r.0.inventory == d.inventory && r.0.nv == d.nv && r.0.nextId == d.nextId
  {
    if 0 <= d.ns < |d.sales| then (d.(sales := d.sales[d.ns := Some(sale)], ns := d.ns + 1), false)
    else (d.(ns := d.ns + 1), true)
  }

  /** With a full sales array, the sale of a vehicle already removed from the
      inventory is lost: nothing is recorded, the call throws, and the counter
      no longer describes the array. */
  lemma SaleLostWhenSalesFull(d: Dealership, sale: Sale)
    requires Valid(d) && d.ns == |d.sales|
    ensures var (r, threw) := RecordSaleAsWritten(d, sale);
      threw && r.sales == d.sales && !Valid(r)
  {
  }

  /** The removal-then-record sequence of sellVehicle as written, stated on the
      dealership after a successful removal: one sale per removed vehicle
      exactly when the sales array has room. */
  lemma {:induction false} SellAsWrittenRecordsOnlyWithRoom(d: Dealership, sale: Sale)
    requires Valid(d)
    ensures var (r, threw) := RecordSaleAsWritten(d, sale);
      (!threw <==> d.ns < |d.sales|) &&
      (!threw ==> Valid(r) && SalesLog(r) == SalesLog(d) + [sale])
  {
    var (r, threw) := RecordSaleAsWritten(d, sale);
    if !threw {
      assert Valid(r);
      assert forall j :: 0 <= j < d.ns ==> SalesLog(r)[j] == SalesLog(d)[j];
    }
  }

  datatype SellOutcome = Sold | NotSold | SalesFull | SellThrew

  /** sellVehicle, with the capacity of the sales array checked before the
      vehicle is removed (as written, the check is missing; see
      RecordSaleAsWritten). `deleteFails` and `insertFails` are whether the
      DELETE of the vehicle and the INSERT of the sale throw; the sale INSERT
      runs after memory has been updated, so its failure leaves the sale in place. */
  method SellVehicle(d: Dealership, vehicle: Option<Vehicle>, buyerName: string, buyerContact: string,
                     date: string, deleteFails: bool, insertFails: bool)
    returns (r: Dealership, outcome: SellOutcome)
    requires Valid(d)
    ensures Valid(r)
    ensures outcome == SalesFull <==> d.ns == |d.sales|
    ensures outcome == NotSold ==> r == d
    ensures outcome == SalesFull ==> r == d
    ensures (outcome == Sold || (outcome == SellThrew && r != d)) ==>
      && vehicle.Some?
      && |Contents(r)| == |Contents(d)| - 1
      && SalesLog(r) == SalesLog(d) + [Sale(vehicle.value, buyerName, buyerContact, date)]
      && !IsFull(r)
      && exists k :: 0 <= k < d.nv && HasId(d.inventory[k], vehicle.value.id) &&
           (forall j :: 0 <= j < k ==> !HasId(d.inventory[j], vehicle.value.id)) &&
           Contents(r) == Contents(d)[..k] + Contents(d)[k + 1..]
    ensures outcome == Sold <==>
      d.ns < |d.sales| && vehicle.Some? && !deleteFails && !insertFails &&
      exists j :: 0 <= j < d.nv && HasId(d.inventory[j], vehicle.value.id)
  {
    if d.ns == |d.sales| {
      return d, SalesFull;
    }
    var removed, removal := RemoveVehicle(d, vehicle, deleteFails);
    if removal == NotRemoved {
      return d, NotSold;
    }
    if removal == RemoveThrew {
      return d, SellThrew;
    }
    var sale := Sale(vehicle.value, buyerName, buyerContact, date);
    SellAsWrittenRecordsOnlyWithRoom(removed, sale);
    r := RecordSaleAsWritten(removed, sale).0;
    assert Contents(r) == Contents(removed);
    outcome := if insertFails then SellThrew else Sold;
  }

  /** sellVehicle as written: remove the vehicle (deleting its row), then
      `sales[ns++] = sale`, then the sale INSERT. With a full sales array the
      removal has already happened when the store into the array throws, so
      the vehicle leaves the stock and no sale is recorded. */
  method SellVehicleAsWritten(d: Dealership, vehicle: Option<Vehicle>, buyerName: string, buyerContact: string,
                              date: string, deleteFails: bool, insertFails: bool)
    returns (r: Dealership, outcome: SellOutcome)
    requires Valid(d)
    ensures outcome != SalesFull
    ensures outcome == NotSold ==> r == d
    ensures outcome == Sold <==>
      d.ns < |d.sales| && vehicle.Some? && !deleteFails && !insertFails &&
      exists j :: 0 <= j < d.nv && HasId(d.inventory[j], vehicle.value.id)
    ensures outcome == Sold ==>
      Valid(r) && SalesLog(r) == SalesLog(d) + [Sale(vehicle.value, buyerName, buyerContact, date)]
    ensures vehicle.Some? && !deleteFails && d.ns == |d.sales| &&
            (exists j :: 0 <= j < d.nv && HasId(d.inventory[j], vehicle.value.id)) ==>
      && outcome == SellThrew
      && r.sales == d.sales && r.ns == d.ns + 1 && !Valid(r)
      && StockValid(r) && !IsFull(r) && r.nextId == d.nextId
      && exists k :: 0 <= k < d.nv && HasId(d.inventory[k], vehicle.value.id) &&
           (forall j :: 0 <= j < k ==> !HasId(d.inventory[j], vehicle.value.id)) &&
           Contents(r) == Contents(d)[..k] + Contents(d)[k + 1..]
  {
    var removed, removal := RemoveVehicle(d, vehicle, deleteFails);
    if removal == NotRemoved {
      return d, NotSold;
    }
    if removal == RemoveThrew {
      return d, SellThrew;
    }
    var sale := Sale(vehicle.value, buyerName, buyerContact, date);
    SellAsWrittenRecordsOnlyWithRoom(removed, sale);
    var threw;
    r, threw := RecordSaleAsWritten(removed, sale).0, RecordSaleAsWritten(removed, sale).1;
    if threw {
      assert r == removed.(ns := removed.ns + 1);
      assert Contents(r) == Contents(removed);
      return r, SellThrew;
    }
    outcome := if insertFails then SellThrew else Sold;
  }

  // ---------------------------------------------------------------------------
  // Filters and counts
  // ---------------------------------------------------------------------------

  /** The vehicles held in `slots` that satisfy `keep`, in slot order. */
  function Select(slots: seq<Option<Vehicle>>, keep: Vehicle -> bool): seq<Vehicle>
    decreases |slots|
  {
    if slots == [] then []
    else
      var last := slots[|slots| - 1];
      Select(slots[..|slots| - 1], keep) + (if last.Some? && keep(last.value) then [last.value] else [])
  }

  /** A vehicle is selected exactly when some slot holds it and it satisfies the test. */
  lemma {:induction false} SelectMembers(slots: seq<Option<Vehicle>>, keep: Vehicle -> bool, v: Vehicle)
    ensures v in Select(slots, keep) <==> keep(v) && exists i :: 0 <= i < |slots| && slots[i] == Some(v)
    decreases |slots|
  {
    if slots != [] {
      var init := slots[..|slots| - 1];
      SelectMembers(init, keep, v);
      if keep(v) && exists i :: 0 <= i < |slots| && slots[i] == Some(v) {
        var i :| 0 <= i < |slots| && slots[i] == Some(v);
        if i < |init| {
          assert init[i] == Some(v);
        }
      }
      if exists i :: 0 <= i < |init| && init[i] == Some(v) {
        var i :| 0 <= i < |init| && init[i] == Some(v);
        assert slots[i] == Some(v);
      }
    }
  }

  predicate IsCar(v: Vehicle)
  {
    v.Car?
  }

  predicate IsMotorcycle(v: Vehicle)
  {
    v.Motorcycle?
  }

  function WithinBudget(budget: int): Vehicle -> bool
  {
    (v: Vehicle) => v.Car? && v.price <= budget
  }

  function OfCarType(carType: string): Vehicle -> bool
  {
    (v: Vehicle) => v.Car? && v.carType == carType
  }

  /** When every slot holds a vehicle, the cars and the motorcycles account for all of them. */
  lemma {:induction false} CarsPlusMotorcycles(slots: seq<Option<Vehicle>>)
    requires forall i :: 0 <= i < |slots| ==> slots[i].Some?
    ensures |Select(slots, IsCar)| + |Select(slots, IsMotorcycle)| == |slots|
    decreases |slots|
  {
    if slots != [] {
      CarsPlusMotorcycles(slots[..|slots| - 1]);
    }
  }

  /** A loop that collects the selected vehicles of a prefix of the slots. */
  method CollectSelected(slots: seq<Option<Vehicle>>, n: int, keep: Vehicle -> bool) returns (r: seq<Vehicle>)
    requires 0 <= n <= |slots|
    ensures r == Select(slots[..n], keep)
  {
    r := [];
    var i := 0;
    while i < n
      invariant 0 <= i <= n
      invariant r == Select(slots[..i], keep)
    {
      assert slots[..i + 1][..i] == slots[..i];
      if slots[i].Some? && keep(slots[i].value) {
        r := r + [slots[i].value];
      }
      i := i + 1;
    }
  }

  /** carsWithinBudget: the cars priced at or under the budget, scanning the
      whole array rather than only the slots in use. */
  method CarsWithinBudget(d: Dealership, budget: int) returns (cars: seq<Vehicle>)
    ensures cars == Select(d.inventory, WithinBudget(budget))
    ensures forall v :: v in cars <==> v.Car? && v.price <= budget && Some(v) in d.inventory
  {
    cars := CollectSelected(d.inventory, |d.inventory|, WithinBudget(budget));
    assert d.inventory[..|d.inventory|] == d.inventory;
    forall v
      ensures v in cars <==> v.Car? && v.price <= budget && Some(v) in d.inventory
    {
      SelectMembers(d.inventory, WithinBudget(budget), v);
    }
  }

  /** searchCar: the cars among the slots in use whose type equals `carType`. */
  method SearchCar(d: Dealership, carType: string) returns (cars: seq<Vehicle>)
    requires 0 <= d.nv <= |d.inventory|
    ensures cars == Select(d.inventory[..d.nv], OfCarType(carType))
    ensures forall v :: v in cars <==> v.Car? && v.carType == carType && Some(v) in d.inventory[..d.nv]
  {
    cars := CollectSelected(d.inventory, d.nv, OfCarType(carType));
    forall v
      ensures v in cars <==> v.Car? && v.carType == carType && Some(v) in d.inventory[..d.nv]
    {
      SelectMembers(d.inventory[..d.nv], OfCarType(carType), v);
    }
  }

  /** getTotalCars: the number of cars among the slots in use. */
  method TotalCars(d: Dealership) returns (total: int)
    requires 0 <= d.nv <= |d.inventory|
    ensures total == |Select(d.inventory[..d.nv], IsCar)|
  {
    total := 0;
    var i := 0;
    while i < d.nv
      invariant 0 <= i <= d.nv
      invariant total == |Select(d.inventory[..i], IsCar)|
    {
      assert d.inventory[..i + 1][..i] == d.inventory[..i];
      if d.inventory[i].Some? && d.inventory[i].value.Car? {
        total := total + 1;
      }
      i := i + 1;
    }
  }

  /** getTotalMotorcycles: the number of motorcycles among the slots in use. */
  method TotalMotorcycles(d: Dealership) returns (total: int)
    requires 0 <= d.nv <= |d.inventory|
    ensures total == |Select(d.inventory[..d.nv], IsMotorcycle)|
  {
    total := 0;
    var i := 0;
    while i < d.nv
      invariant 0 <= i <= d.nv
      invariant total == |Select(d.inventory[..i], IsMotorcycle)|
    {
      assert d.inventory[..i + 1][..i] == d.inventory[..i];
      if d.inventory[i].Some? && d.inventory[i].value.Motorcycle? {
        total := total + 1;
      }
      i := i + 1;
    }
  }

  /** In a valid dealership the two totals add up to the number of vehicles in stock. */
  lemma TotalsAddUp(d: Dealership)
    requires Valid(d)
    ensures |Select(d.inventory[..d.nv], IsCar)| + |Select(d.inventory[..d.nv], IsMotorcycle)| == d.nv
  {
    CarsPlusMotorcycles(d.inventory[..d.nv]);
  }

  // ---------------------------------------------------------------------------
  // Reloading from the store
  // ---------------------------------------------------------------------------

  /** A row of the unsold vehicles of this dealership; a null type column is None. */
  datatype VehicleRow = VehicleRow(
    id: int, make: string, model: string, color: string, year: int, price: int,
    carType: Option<string>, handlebarType: Option<string>)

  /** A row with a car type is a car; otherwise one with a handlebar type is a
      motorcycle; a row with neither is skipped. */
  function Decode(row: VehicleRow): (v: Option<Vehicle>)
    ensures v.Some? ==> v.value.id == row.id && v.value.price == row.price
    ensures v.Some? ==> v.value.make == row.make && v.value.model == row.model &&
                        v.value.color == row.color && v.value.year == row.year
    ensures v.Some? <==> row.carType.Some? || row.handlebarType.Some?
    ensures v.Some? ==> (v.value.Car? <==> row.carType.Some?)
    ensures v.Some? && v.value.Car? ==> row.carType == Some(v.value.carType)
    ensures v.Some? && v.value.Motorcycle? ==> row.handlebarType == Some(v.value.handlebarType)
  {
    if row.carType.Some? then
      Some(Car(row.id, row.make, row.model, row.color, row.year, row.price, row.carType.value))
    else if row.handlebarType.Some? then
      Some(Motorcycle(row.id, row.make, row.model, row.color, row.year, row.price, row.handlebarType.value))
    else None
  }

  /** The row addVehicle's INSERT stores for a vehicle, read back with its
      `vehicle_id`: make, model, color, year and price, and the type in
      `car_type` for a car or `handlebar_type` for a motorcycle, the other
      type column left null. */
  function RowOf(v: Vehicle): VehicleRow
  {
    VehicleRow(v.id, v.make, v.model, v.color, v.year, v.price,
               if v.Car? then Some(v.carType) else None,
               if v.Motorcycle? then Some(v.handlebarType) else None)
  }

  /** Storing a vehicle and reading it back gives the same vehicle, and a row
      with at most one type column is exactly the stored form of what it
      decodes to. */
  lemma DecodeRowOf(v: Vehicle, row: VehicleRow)
    ensures Decode(RowOf(v)) == Some(v)
    ensures Decode(row).Some? && (row.carType.None? || row.handlebarType.None?) ==> RowOf(Decode(row).value) == row
  {
  }

  /** The vehicles the rows decode to, in row order. */
  function Decoded(rows: seq<VehicleRow>): seq<Vehicle>
    decreases |rows|
  {
    if rows == [] then []
    else
      var last := Decode(rows[|rows| - 1]);
      Decoded(rows[..|rows| - 1]) + (if last.Some? then [last.value] else [])
  }

  /** The watermark after reading `rows`: raised to id + 1 by every row, decoded or not. */
  function Watermark(start: int, rows: seq<VehicleRow>): int
    decreases |rows|
  {
    if rows == [] then start
    else
      var w := Watermark(start, rows[..|rows| - 1]);
      var id := rows[|rows| - 1].id;
      if id >= w then id + 1 else w
  }

  /** The watermark never drops and ends above the id of every row read. */
  lemma {:induction false} WatermarkAboveIds(start: int, rows: seq<VehicleRow>)
    ensures Watermark(start, rows) >= start
    ensures forall i :: 0 <= i < |rows| ==> rows[i].id < Watermark(start, rows)
    decreases |rows|
  {
    if rows != [] {
      var init := rows[..|rows| - 1];
      WatermarkAboveIds(start, init);
      assert forall i :: 0 <= i < |init| ==> rows[i] == init[i];
    }
  }

  /** Decoding a prefix of the rows gives a prefix of the decoded vehicles. */
  lemma {:induction false} DecodedPrefix(rows: seq<VehicleRow>, k: nat)
    requires k <= |rows|
    ensures |Decoded(rows[..k])| <= |Decoded(rows)|
    ensures Decoded(rows[..k]) == Decoded(rows)[..|Decoded(rows[..k])|]
    decreases |rows|
  {
    if k < |rows| {
      var init := rows[..|rows| - 1];
      DecodedPrefix(init, k);
      assert init[..k] == rows[..k];
    } else {
      assert rows[..k] == rows;
    }
  }

  /** A vehicle is loaded exactly when some row decodes to it. */
  lemma {:induction false} DecodedMembers(rows: seq<VehicleRow>, v: Vehicle)
    ensures v in Decoded(rows) <==> exists i :: 0 <= i < |rows| && Decode(rows[i]) == Some(v)
    decreases |rows|
  {
    if rows != [] {
      var init := rows[..|rows| - 1];
      DecodedMembers(init, v);
      if exists i :: 0 <= i < |rows| && Decode(rows[i]) == Some(v) {
        var i :| 0 <= i < |rows| && Decode(rows[i]) == Some(v);
        if i < |init| {
          assert Decode(init[i]) == Some(v);
        }
      }
      if exists i :: 0 <= i < |init| && Decode(init[i]) == Some(v) {
        var i :| 0 <= i < |init| && Decode(init[i]) == Some(v);
        assert Decode(rows[i]) == Some(v);
      }
    }
  }

  /** reloadInventoryFromDatabase: clear every slot, then read rows while there
      are rows and free slots, decoding each and raising the watermark for each
      row read. `consumed` is the number of rows read.

      `failAt` is the `rs.next()` call, counted from 0, that throws, if any;
      the query itself throwing leaves the same state as call 0 throwing. The
      loop test calls `rs.next()` before it checks for a free slot, so a throw
      can come even once the array is full. A throw leaves the array cleared
      and holding the rows read so far. */
  method ReloadInventory(d: Dealership, rows: seq<VehicleRow>, failAt: Option<nat>)
    returns (r: Dealership, consumed: nat, threw: bool)
    ensures StockValid(r) && (SalesValid(d) ==> Valid(r))
    ensures threw <==> failAt == Some(consumed)
    ensures consumed <= |rows| && |r.inventory| == |d.inventory|
    ensures Decoded(rows[..consumed]) == Contents(r)
    ensures r.nv <= Min(|Decoded(rows)|, |d.inventory|) && Contents(r) == Decoded(rows)[..r.nv]
    ensures !threw ==> r.nv == Min(|Decoded(rows)|, |d.inventory|)
    ensures !threw && consumed < |rows| ==> IsFull(r)
    ensures failAt == Some(0) ==> r.nv == 0 && r.nextId == d.nextId
    ensures r.nextId == Watermark(d.nextId, rows[..consumed])
    ensures r.nextId >= d.nextId && forall i :: 0 <= i < consumed ==> rows[i].id < r.nextId
    ensures r.sales == d.sales && r.ns == d.ns
  {
    var inv := d.inventory;
    var i := 0;
    while i < |inv|
      invariant 0 <= i <= |inv| == |d.inventory|
      invariant forall j :: 0 <= j < i ==> inv[j].None?
    {
      inv := inv[i := None];
      i := i + 1;
    }
    var nv := 0;
    var nextId := d.nextId;
    var k := 0;
    while failAt != Some(k) && k < |rows| && nv < |inv|
      invariant 0 <= k <= |rows|
      invariant failAt.Some? ==> k <= failAt.value
      invariant |inv| == |d.inventory|
      invariant nv == |Decoded(rows[..k])| <= |inv|
      invariant forall j :: 0 <= j < |inv| ==> inv[j] == (if j < nv then Some(Decoded(rows[..k])[j]) else None)
      invariant nextId == Watermark(d.nextId, rows[..k])
    {
      assert rows[..k + 1][..k] == rows[..k];
      var row := rows[k];
      var v := Decode(row);
      if v.Some? {
        inv := inv[nv := Some(v.value)];
        nv := nv + 1;
      }
      if row.id >= nextId {
        nextId := row.id + 1;
      }
      k := k + 1;
    }
    consumed := k;
    threw := failAt == Some(k);
    r := Dealership(inv, nv, d.sales, d.ns, nextId);
    DecodedPrefix(rows, k);
    if k == |rows| {
      assert rows[..k] == rows;
    }
    WatermarkAboveIds(d.nextId, rows[..k]);
    assert forall j :: 0 <= j < k ==> rows[..k][j] == rows[j];
    assert Contents(r) == Decoded(rows[..k]);
  }

  function Min(x: int, y: int): int
  {
    if x <= y then x else y
  }
}

=== FILE: login.dfy ===
/**
 * The login decision procedure of the login screen (LoginFrame.authenticateUser):
 * user lookup, the locked-account short circuit, the password check, the
 * failed-attempt counter with its lockout at three, and the Admin exemption.
 *
 * Every store read and write goes to the account tables given as `a`; a store
 * failure is injected through `fault`, one failure point per attempt.
 * `User.checkPassword` is not part of this model and is a parameter.
 */
module Login {
  import opened Base
  import opened AccountStore

  /** Failed attempts at which a non-Admin account is deactivated. */
  const LockoutThreshold: int := 3

  /** Where, if anywhere, the store throws during one login attempt. */
  datatype Fault =
    | NoFault
    | LookupFails        // both `users` queries of loadUser throw (the join's failure is caught, the direct query's is not)
    | StatusQueryFails   // `SELECT is_active ...` throws
    | ResetFails         // resetFailedAttempts throws (caught, login continues)
    | IncrementFails     // incrementFailedAttempts throws
    | RereadFails        // `SELECT failed_attempts ...` throws
    | LockFails          // `UPDATE users SET is_active = 0 ...` throws

  /** What the login screen shows or opens after one attempt. */
  datatype LoginOutcome =
    | UsernameNotFound
    | AccountLocked                   // rejected before the password is checked
    | MustChangePassword(user: User)  // the forced password change is entered
    | Granted(user: User)             // the dashboard of the user's role is opened
    | LockedOut                       // this attempt reached the threshold
    | AttemptsLeft(remaining: nat)
    | InvalidPassword
    | DatabaseError

  datatype LoginResult = LoginResult(store: Accounts, outcome: LoginOutcome)

  /** One press of the Login button. */
  function Authenticate(a: Accounts, username: string, password: string,
                        checkPassword: (User, string) -> bool, fault: Fault): (r: LoginResult)
    ensures r.outcome == UsernameNotFound ==> r.store == a && LoadUser(a, username).None?
    ensures LoadUser(a, username).None? && !(fault == LookupFails && !IsEmergencyName(username)) ==>
      r == LoginResult(a, UsernameNotFound)
    ensures r.outcome == DatabaseError <==>
      (fault == LookupFails && !IsEmergencyName(username)) || (fault == StatusQueryFails && LoadUser(a, username).Some?)
    ensures r.outcome == DatabaseError ==> r.store == a
    ensures r.outcome.Granted? ==> !r.outcome.user.isTempPassword && checkPassword(r.outcome.user, password)
    ensures r.outcome.MustChangePassword? ==> r.outcome.user.isTempPassword && checkPassword(r.outcome.user, password)
    ensures (r.outcome.LockedOut? || r.outcome.AttemptsLeft? || r.outcome == AccountLocked) ==>
      LoadUser(a, username).Some? && LoadUser(a, username).value.role != Admin
  {
    if fault == LookupFails && !IsEmergencyName(username) then LoginResult(a, DatabaseError)
    else match LoadUser(a, username)
      case None => LoginResult(a, UsernameNotFound)
      case Some(u) => Attempt(a, u, password, checkPassword, fault)
  }

  /** The user object the password is checked against: the loaded user with the
      `is_active` value just read from the store. */
  function CheckedUser(a: Accounts, u: User): User
  {
    u.(isActive := StoredActive(a, u.id))
  }

  /** The attempt once the user has been found. */
  function Attempt(a: Accounts, u: User, password: string,
                   checkPassword: (User, string) -> bool, fault: Fault): (r: LoginResult)
    ensures r.outcome == AccountLocked <==>
      fault != StatusQueryFails && u.role != Admin && !StoredActive(a, u.id)
    ensures r.outcome == AccountLocked ==> r.store == a
    ensures u.role == Admin && !checkPassword(CheckedUser(a, u), password) ==> r.store == a
    ensures r.outcome == DatabaseError <==> fault == StatusQueryFails
    ensures r.outcome != UsernameNotFound
    ensures r.outcome.Granted? ==>
      r.outcome.user == CheckedUser(a, u) && !r.outcome.user.isTempPassword && checkPassword(CheckedUser(a, u), password)
    ensures r.outcome.MustChangePassword? ==>
      r.outcome.user == CheckedUser(a, u) && r.outcome.user.isTempPassword && checkPassword(CheckedUser(a, u), password)
    ensures (r.outcome.LockedOut? || r.outcome.AttemptsLeft?) ==> u.role != Admin
  {
    if fault == StatusQueryFails then LoginResult(a, DatabaseError)
    else if u.role != Admin && !StoredActive(a, u.id) then LoginResult(a, AccountLocked)
    else
      var user := CheckedUser(a, u);
      if checkPassword(user, password) then PasswordAccepted(a, user, fault)
      else if u.role == Admin then LoginResult(a, InvalidPassword)
      else TrackFailure(a, u.id, fault)
  }

  /** A correct password: the counter is reset for every role (a failure to reset
      is swallowed), then the temporary-password flag picks the next screen. */
  function PasswordAccepted(a: Accounts, user: User, fault: Fault): (r: LoginResult)
    ensures r.outcome == (if user.isTempPassword then MustChangePassword(user) else Granted(user))
    ensures fault == ResetFails ==> r.store == a
  {
    var a' := if fault == ResetFails then a else SetAttempts(a, user.id, 0);
    LoginResult(a', if user.isTempPassword then MustChangePassword(user) else Granted(user))
  }

  /** A wrong password for a non-Admin: increment, re-read the stored count,
      lock at the threshold, otherwise report the remaining attempts. Any store
      failure on the way yields the generic message. */
  function TrackFailure(a: Accounts, id: int, fault: Fault): (r: LoginResult)
    ensures r.outcome.InvalidPassword? || r.outcome.LockedOut? || r.outcome.AttemptsLeft?
    ensures fault == IncrementFails || fault == RereadFails ==> r.outcome == InvalidPassword
    ensures r.outcome == LockedOut ==> fault != IncrementFails && fault != RereadFails && fault != LockFails
    ensures fault == IncrementFails ==> r.store == a
    ensures r.outcome.AttemptsLeft? ==> r.outcome.remaining >= 1
  {
    if fault == IncrementFails then LoginResult(a, InvalidPassword)
    else
      var a1 := IncrementAttempts(a, id);
      if fault == RereadFails then LoginResult(a1, InvalidPassword)
      else
        var count := StoredAttempts(a1, id);
        if count >= LockoutThreshold then
          if fault == LockFails then LoginResult(a1, InvalidPassword)
          else LoginResult(SetActive(a1, id, false), LockedOut)
        else LoginResult(a1, AttemptsLeft(LockoutThreshold - count))
  }

  /** A successful reset leaves a zero counter and the active flag as it was. */
  lemma CorrectPasswordResetsCounter(a: Accounts, user: User, fault: Fault)
    requires fault != ResetFails && RowById(a, user.id).Some?
    ensures StoredAttempts(PasswordAccepted(a, user, fault).store, user.id) == 0
    ensures StoredActive(PasswordAccepted(a, user, fault).store, user.id) == StoredActive(a, user.id)
  {
    UpdateKeepsRowPosition(a, user.id, (row: UserRow) => row.(failedAttempts := 0), user.id);
  }

  /** With no store failure, a wrong password adds one to the stored counter;
      reaching the threshold deactivates the row, otherwise the message counts
      the attempts left. */
  lemma WrongPasswordCounts(a: Accounts, id: int)
    requires RowById(a, id).Some?
    ensures var r := TrackFailure(a, id, NoFault);
      var n := StoredAttempts(a, id) + 1;
      && StoredAttempts(r.store, id) == n
      && RowById(r.store, id).Some?
      && (n >= LockoutThreshold ==> r.outcome == LockedOut && !StoredActive(r.store, id))
      && (n < LockoutThreshold ==> r.outcome == AttemptsLeft(LockoutThreshold - n) && StoredActive(r.store, id) == StoredActive(a, id))
  {
    var a1 := IncrementAttempts(a, id);
    UpdateKeepsRowPosition(a, id, (row: UserRow) => row.(failedAttempts := row.failedAttempts + 1), id);
    if StoredAttempts(a1, id) >= LockoutThreshold {
      UpdateKeepsRowPosition(a1, id, (row: UserRow) => row.(isActive := 0), id);
    }
  }

  // ---------------------------------------------------------------------------
  // What one attempt may write
  // ---------------------------------------------------------------------------

  /** Every column other than `is_active` and `failed_attempts` is the same. */
  predicate SameIdentity(x: UserRow, y: UserRow)
  {
    x.(isActive := 0, failedAttempts := 0) == y.(isActive := 0, failedAttempts := 0)
  }

  /** `b` differs from `a` at most in the counters of the rows carrying `id`. */
  ghost predicate TouchesOnlyCounters(a: Accounts, b: Accounts, id: int)
  {
    && b.roles == a.roles && b.permissions == a.permissions && b.grants == a.grants
    && |b.users| == |a.users|
    && (forall i :: 0 <= i < |a.users| ==> SameIdentity(b.users[i], a.users[i]))
    && (forall i :: 0 <= i < |a.users| && a.users[i].userId != id ==> b.users[i] == a.users[i])
  }

  lemma CounterUpdatesTouchOnlyCounters(a: Accounts, id: int, n: int)
    ensures TouchesOnlyCounters(a, SetAttempts(a, id, n), id)
    ensures TouchesOnlyCounters(a, IncrementAttempts(a, id), id)
    ensures TouchesOnlyCounters(a, SetActive(a, id, false), id)
  {
  }

  lemma {:induction false} TouchesOnlyCountersTransitive(a: Accounts, b: Accounts, c: Accounts, id: int)
    requires TouchesOnlyCounters(a, b, id) && TouchesOnlyCounters(b, c, id)
    ensures TouchesOnlyCounters(a, c, id)
  {
    forall i | 0 <= i < |a.users|
      ensures SameIdentity(c.users[i], a.users[i])
      ensures a.users[i].userId != id ==> c.users[i] == a.users[i]
    {
      assert SameIdentity(c.users[i], b.users[i]) && SameIdentity(b.users[i], a.users[i]);
    }
  }

  lemma TrackFailureFrame(a: Accounts, id: int, fault: Fault)
    ensures TouchesOnlyCounters(a, TrackFailure(a, id, fault).store, id)
  {
    var a1 := IncrementAttempts(a, id);
    CounterUpdatesTouchOnlyCounters(a, id, 0);
    CounterUpdatesTouchOnlyCounters(a1, id, 0);
    TouchesOnlyCountersTransitive(a, a1, SetActive(a1, id, false), id);
  }

  /** A login attempt writes only `is_active` and `failed_attempts`, only in the
      rows of the user it looked up, and never touches the other tables. */
  lemma AuthenticateFrame(a: Accounts, username: string, password: string,
                          checkPassword: (User, string) -> bool, fault: Fault)
    ensures var r := Authenticate(a, username, password, checkPassword, fault);
      r.store == a || (LoadUser(a, username).Some? && TouchesOnlyCounters(a, r.store, LoadUser(a, username).value.id))
  {
    var u := LoadUser(a, username);
    if u.Some? && !(fault == LookupFails && !IsEmergencyName(username)) {
      AttemptFrame(a, u.value, password, checkPassword, fault);
    }
  }

  lemma AttemptFrame(a: Accounts, u: User, password: string,
                     checkPassword: (User, string) -> bool, fault: Fault)
    ensures var r := Attempt(a, u, password, checkPassword, fault);
      r.store == a || TouchesOnlyCounters(a, r.store, u.id)
  {
    var user := CheckedUser(a, u);
    if fault != StatusQueryFails && !(u.role != Admin && !StoredActive(a, u.id)) {
      if checkPassword(user, password) {
        assert TouchesOnlyCounters(a, SetAttempts(a, u.id, 0), u.id) by {
          CounterUpdatesTouchOnlyCounters(a, u.id, 0);
        }
      } else if u.role != Admin {
        TrackFailureFrame(a, u.id, fault);
      }
    }
  }

  // ---------------------------------------------------------------------------
  // Lookups across the updates a login performs
  // ---------------------------------------------------------------------------

  /** Changing the counter does not change which user a name loads. */
  lemma LoadUserAfterCounterChange(a: Accounts, id: int, username: string, n: int)
    ensures LoadUser(IncrementAttempts(a, id), username) == LoadUser(a, username)
    ensures LoadUser(SetAttempts(a, id, n), username) == LoadUser(a, username)
  {
    assert LoadUser(IncrementAttempts(a, id), username) == LoadUser(a, username) by {
      UpdateKeepsLoadUser(a, id, (row: UserRow) => row.(failedAttempts := row.failedAttempts + 1), username);
    }
    UpdateKeepsLoadUser(a, id, (row: UserRow) => row.(failedAttempts := n), username);
  }

  /** Deactivating a row keeps the user a name loads, up to its active flag. */
  lemma LoadUserAfterDeactivation(a: Accounts, id: int, username: string)
    ensures var b := SetActive(a, id, false);
      && (LoadUser(b, username).Some? <==> LoadUser(a, username).Some?)
      && (LoadUser(b, username).Some? ==>
            LoadUser(b, username).value.id == LoadUser(a, username).value.id &&
            LoadUser(b, username).value.role == LoadUser(a, username).value.role)
  {
    var b := SetActive(a, id, false);
    UpdateKeepsLookup(a, id, (row: UserRow) => row.(isActive := 0), username);
    var m := LookupRow(a, username);
    if !IsEmergencyName(username) && m.Some? {
      assert b.users[m.value.index].userId == a.users[m.value.index].userId;
    }
  }

  // ---------------------------------------------------------------------------
  // The lockout policy
  // ---------------------------------------------------------------------------

  /** A non-Admin whose stored `is_active` is not 1 is rejected before the
      password is checked, whatever password was typed, and nothing is written. */
  lemma LockedAccountRejected(a: Accounts, username: string, password: string,
                              checkPassword: (User, string) -> bool, fault: Fault)
    requires fault != LookupFails && fault != StatusQueryFails
    requires LoadUser(a, username).Some? && LoadUser(a, username).value.role != Admin
    requires !StoredActive(a, LoadUser(a, username).value.id)
    ensures Authenticate(a, username, password, checkPassword, fault) == LoginResult(a, AccountLocked)
  {
  }

  /** The right password for an account that is active (or belongs to an Admin)
      logs in as the loaded user with the stored active flag, and the counter is
      reset unless the reset fails. */
  lemma CorrectPasswordLogsIn(a: Accounts, username: string, password: string,
                              checkPassword: (User, string) -> bool, fault: Fault)
    requires fault == NoFault || fault == ResetFails || fault == IncrementFails || fault == RereadFails || fault == LockFails
    requires LoadUser(a, username).Some?
    requires var u := LoadUser(a, username).value;
      (u.role == Admin || StoredActive(a, u.id)) && checkPassword(CheckedUser(a, u), password)
    ensures var u := CheckedUser(a, LoadUser(a, username).value);
      var r := Authenticate(a, username, password, checkPassword, fault);
      && r.outcome == (if u.isTempPassword then MustChangePassword(u) else Granted(u))
      && (fault != ResetFails && RowById(a, u.id).Some? ==> StoredAttempts(r.store, u.id) == 0)
  {
    var u := CheckedUser(a, LoadUser(a, username).value);
    var r := Authenticate(a, username, password, checkPassword, fault);
    assert r == PasswordAccepted(a, u, fault);
    if fault != ResetFails && RowById(a, u.id).Some? {
      CorrectPasswordResetsCounter(a, u, fault);
    }
  }

  /** A wrong password for an Admin writes nothing and shows the generic message. */
  lemma AdminWrongPasswordChangesNothing(a: Accounts, username: string, password: string,
                                         checkPassword: (User, string) -> bool, fault: Fault)
    requires LoadUser(a, username).Some? && LoadUser(a, username).value.role == Admin
    requires !checkPassword(CheckedUser(a, LoadUser(a, username).value), password)
    ensures Authenticate(a, username, password, checkPassword, fault).store == a
    ensures fault != LookupFails && fault != StatusQueryFails ==>
      Authenticate(a, username, password, checkPassword, fault).outcome == InvalidPassword
  {
  }

  /** Attempts made one after another with the same username and checker. */
  function RunAttempts(a: Accounts, username: string, passwords: seq<string>,
                       checkPassword: (User, string) -> bool): Accounts
    decreases |passwords|
  {
    if passwords == [] then a
    else RunAttempts(Authenticate(a, username, passwords[0], checkPassword, NoFault).store,
                     username, passwords[1..], checkPassword)
  }

  /** Any number of wrong passwords for an Admin leave every table unchanged. */
  lemma {:induction false} AdminNeverLocked(a: Accounts, username: string, passwords: seq<string>,
                                           checkPassword: (User, string) -> bool)
    requires LoadUser(a, username).Some? && LoadUser(a, username).value.role == Admin
    requires forall i :: 0 <= i < |passwords| ==> !checkPassword(CheckedUser(a, LoadUser(a, username).value), passwords[i])
    ensures RunAttempts(a, username, passwords, checkPassword) == a
    decreases |passwords|
  {
    if passwords != [] {
      AdminWrongPasswordChangesNothing(a, username, passwords[0], checkPassword, NoFault);
      AdminNeverLocked(a, username, passwords[1..], checkPassword);
    }
  }

  /** For an active non-Admin, a wrong password goes straight to attempt tracking. */
  lemma WrongPasswordIsTracked(a: Accounts, username: string, wrong: string,
                               checkPassword: (User, string) -> bool, fault: Fault)
    requires fault != LookupFails && fault != StatusQueryFails
    requires LoadUser(a, username).Some?
    requires var u := LoadUser(a, username).value;
      u.role != Admin && StoredActive(a, u.id) && !checkPassword(CheckedUser(a, u), wrong)
    ensures Authenticate(a, username, wrong, checkPassword, fault) ==
      TrackFailure(a, LoadUser(a, username).value.id, fault)
  {
  }

  /** Below the threshold, a wrong password leaves the same user loadable and
      active, one attempt closer to the lockout. */
  lemma {:induction false} WrongAttemptBelowThreshold(a: Accounts, username: string, wrong: string,
                                                     checkPassword: (User, string) -> bool)
    requires LoadUser(a, username).Some?
    requires var u := LoadUser(a, username).value;
      u.role != Admin && StoredActive(a, u.id) && RowById(a, u.id).Some? && !checkPassword(CheckedUser(a, u), wrong)
      && StoredAttempts(a, u.id) + 1 < LockoutThreshold
    ensures var u := LoadUser(a, username).value;
      var r := Authenticate(a, username, wrong, checkPassword, NoFault);
      && r.outcome == AttemptsLeft(LockoutThreshold - StoredAttempts(a, u.id) - 1)
      && LoadUser(r.store, username) == Some(u)
      && StoredActive(r.store, u.id)
      && RowById(r.store, u.id).Some?
      && StoredAttempts(r.store, u.id) == StoredAttempts(a, u.id) + 1
  {
    var u := LoadUser(a, username).value;
    var r := TrackFailure(a, u.id, NoFault);
    assert Authenticate(a, username, wrong, checkPassword, NoFault) == r by {
      WrongPasswordIsTracked(a, username, wrong, checkPassword, NoFault);
    }
    WrongPasswordCounts(a, u.id);
    assert StoredAttempts(IncrementAttempts(a, u.id), u.id) < LockoutThreshold;
    assert r.store == IncrementAttempts(a, u.id);
    assert LoadUser(r.store, username) == Some(u) by {
      LoadUserAfterCounterChange(a, u.id, username, 0);
    }
  }

  /** At the threshold, a wrong password deactivates the stored row, and the
      name still loads the same user id and role. */
  lemma {:induction false} WrongAttemptAtThreshold(a: Accounts, username: string, wrong: string,
                                                  checkPassword: (User, string) -> bool)
    requires LoadUser(a, username).Some?
    requires var u := LoadUser(a, username).value;
      u.role != Admin && StoredActive(a, u.id) && RowById(a, u.id).Some? && !checkPassword(CheckedUser(a, u), wrong)
      && StoredAttempts(a, u.id) + 1 >= LockoutThreshold
    ensures var u := LoadUser(a, username).value;
      var r := Authenticate(a, username, wrong, checkPassword, NoFault);
      && r.outcome == LockedOut
      && LoadUser(r.store, username).Some?
      && LoadUser(r.store, username).value.id == u.id
      && LoadUser(r.store, username).value.role == u.role
      && !StoredActive(r.store, u.id)
  {
    var u := LoadUser(a, username).value;
    WrongPasswordIsTracked(a, username, wrong, checkPassword, NoFault);
    WrongPasswordCounts(a, u.id);
    LoadUserAfterCounterChange(a, u.id, username, 0);
    LoadUserAfterDeactivation(IncrementAttempts(a, u.id), u.id, username);
  }

  /** Three wrong passwords in a row lock an active non-Admin account whose
      counter was 0 (two, one, then no attempts remaining), and the next attempt
      is rejected as locked even with the right password, without writing anything. */
  lemma {:induction false} ThreeStrikes(a: Accounts, username: string, wrong: string, next: string,
                                       checkPassword: (User, string) -> bool)
    requires LoadUser(a, username).Some?
    requires var u := LoadUser(a, username).value;
      u.role != Admin && RowById(a, u.id).Some? && RowById(a, u.id).value.isActive == 1 &&
      RowById(a, u.id).value.failedAttempts == 0 && !checkPassword(CheckedUser(a, u), wrong)
    ensures var r1 := Authenticate(a, username, wrong, checkPassword, NoFault);
      var r2 := Authenticate(r1.store, username, wrong, checkPassword, NoFault);
      var r3 := Authenticate(r2.store, username, wrong, checkPassword, NoFault);
      var r4 := Authenticate(r3.store, username, next, checkPassword, NoFault);
      && r1.outcome == AttemptsLeft(2)
      && r2.outcome == AttemptsLeft(1)
      && r3.outcome == LockedOut
      && r4 == LoginResult(r3.store, AccountLocked)
  {
    var u := LoadUser(a, username).value;
    WrongAttemptBelowThreshold(a, username, wrong, checkPassword);
    var a1 := Authenticate(a, username, wrong, checkPassword, NoFault).store;
    assert CheckedUser(a1, u) == CheckedUser(a, u);
    WrongAttemptBelowThreshold(a1, username, wrong, checkPassword);
    var a2 := Authenticate(a1, username, wrong, checkPassword, NoFault).store;
    assert CheckedUser(a2, u) == CheckedUser(a, u);
    WrongAttemptAtThreshold(a2, username, wrong, checkPassword);
    var a3 := Authenticate(a2, username, wrong, checkPassword, NoFault).store;
    LockedAccountRejected(a3, username, next, checkPassword, NoFault);
  }

  // ---------------------------------------------------------------------------
  // The status line
  // ---------------------------------------------------------------------------

  /** The status-label text of an outcome (the exception message of a database
      error is not modelled; the forced password change sets its own text). */
  function StatusText(o: LoginOutcome): string
  {
    match o
    case UsernameNotFound => "Username not found"
    case AccountLocked => "Account is locked. Contact an administrator."
    case MustChangePassword(_) => ""
    case Granted(_) => "Login successful!"
    case LockedOut => "Account locked due to too many failed attempts. Contact an administrator."
    case AttemptsLeft(n) =>
      "Invalid password. " + DecimalString(n) + " attempt" + (if n == 1 then "" else "s") + " remaining."
    case InvalidPassword => "Invalid password"
    case DatabaseError => "Database error: "
  }

  /** The plural "attempts" is shown exactly when the remaining count is not 1. */
  lemma {:induction false} AttemptWordAgreesWithCount(n: nat)
    ensures EndsWith(StatusText(AttemptsLeft(n)), "attempts remaining.") <==> n != 1
    ensures n == 1 ==> StatusText(AttemptsLeft(n)) == "Invalid password. 1 attempt remaining."
  {
    var head := "Invalid password. " + DecimalString(n);
    var text := StatusText(AttemptsLeft(n));
    if n == 1 {
      assert DecimalString(1) == "1";
      assert text == "Invalid password. 1 attempt remaining.";
      assert text[|text| - 19..] == " attempt remaining.";
    } else {
      assert text == (head + " ") + "attempts remaining.";
    }
  }
}

=== FILE: test_mode.dfy ===
/**
 * The database manager's switch between the production store and a
 * throw-away in-memory test store. Each store is a map from table name to its
 * CREATE statement and a map from table name to its rows; statements are
 * functions from a store to the new store (None when the statement throws),
 * queries are functions from a store to rows.
 */
module TestMode {
  import opened Base

  datatype Value = IntV(i: int) | TextV(s: string)

  /** A row as the column values an INSERT names. */
  type Row = map<string, Value>

  /** A table as `sqlite_master` records it: its CREATE statement (None when
      the recorded statement is null) and the columns that statement declares. */
  datatype Table = Table(ddl: Option<string>, columns: set<string>)

  /** `schema` maps each table name to its table; `rows` holds each created
      table's rows. */
  datatype Db = Db(schema: map<string, Table>, rows: map<string, seq<Row>>)

  const EmptyDb: Db := Db(map[], map[])

  datatype Manager = Manager(production: Db, test: Option<Db>, testMode: bool)

  /** The flag is only ever set with a test store in place. */
  predicate Valid(m: Manager)
  {
    m.testMode ==> m.test.Some?
  }

  // ---------------------------------------------------------------------------
  // Routing
  // ---------------------------------------------------------------------------

  /** Connection(): the test store exactly when the flag is set. */
  function Active(m: Manager): (db: Db)
    requires Valid(m)
    ensures m.testMode ==> Some(db) == m.test
    ensures !m.testMode ==> db == m.production
  {
    if m.testMode then m.test.value else m.production
  }

  /** The manager with the active store replaced. */
  function WithActive(m: Manager, db: Db): (r: Manager)
    requires Valid(m)
    ensures Valid(r) && r.testMode == m.testMode && Active(r) == db
  {
    if m.testMode then m.(test := Some(db)) else m.(production := db)
  }

  /** runInsert / runUpdate: execute and commit on the active store only. The
      flag says whether the statement threw (then nothing is committed). */
  function RunWrite(m: Manager, stmt: Db -> Option<Db>): (r: (Manager, bool))
    requires Valid(m)
    ensures Valid(r.0) && r.0.testMode == m.testMode
    ensures r.1 <==> stmt(Active(m)).None?
    ensures r.1 ==> r.0 == m
    ensures !r.1 ==> Active(r.0) == stmt(Active(m)).value
    ensures m.testMode ==> r.0.production == m.production
    ensures !m.testMode ==> r.0.test == m.test
  {
    match stmt(Active(m))
    case None => (m, true)
    case Some(db) => (WithActive(m, db), false)
  }

  /** runQuery: evaluated on the active store; nothing changes. */
  function RunQuery(m: Manager, query: Db -> seq<Row>): (rows: seq<Row>)
    requires Valid(m)
    ensures m.testMode ==> rows == query(m.test.value)
    ensures !m.testMode ==> rows == query(m.production)
  {
    query(Active(m))
  }

  /** Statements run one after another; the first that throws stops the run. */
  function RunWrites(m: Manager, stmts: seq<Db -> Option<Db>>): (r: Manager)
    requires Valid(m)
    ensures Valid(r) && r.testMode == m.testMode
    decreases |stmts|
  {
    if stmts == [] then m
    else
      var (m1, threw) := RunWrite(m, stmts[0]);
      if threw then m1 else RunWrites(m1, stmts[1..])
  }

  /** In test mode no sequence of writes reaches the production store. */
  lemma {:induction false} TestWritesSpareProduction(m: Manager, stmts: seq<Db -> Option<Db>>)
    requires Valid(m) && m.testMode
    ensures RunWrites(m, stmts).production == m.production
    decreases |stmts|
  {
    if stmts != [] {
      var (m1, threw) := RunWrite(m, stmts[0]);
      if !threw {
        TestWritesSpareProduction(m1, stmts[1..]);
      }
    }
  }

  /** Out of test mode writes never touch the test store. */
  lemma {:induction false} ProductionWritesSpareTest(m: Manager, stmts: seq<Db -> Option<Db>>)
    requires Valid(m) && !m.testMode
    ensures RunWrites(m, stmts).test == m.test
    decreases |stmts|
  {
    if stmts != [] {
      var (m1, threw) := RunWrite(m, stmts[0]);
      if !threw {
        ProductionWritesSpareTest(m1, stmts[1..]);
      }
    }
  }

  // ---------------------------------------------------------------------------
  // copySchemaToTestDB
  // ---------------------------------------------------------------------------

  predicate IsSystemTable(name: string)
  {
    StartsWith(name, "sqlite_")
  }

  /** The tables of `prod` that are copied: not system tables, and with a
      CREATE statement on record. */
  predicate Copied(prod: Db, name: string)
  {
    name in prod.schema && !IsSystemTable(name) && prod.schema[name].ddl.Some?
  }

  /** Run each copied table's CREATE statement on the empty test store. */
  function CopySchema(prod: Db): (test: Db)
    ensures forall n :: n in test.schema <==> Copied(prod, n)
    ensures forall n :: n in test.schema ==> n in prod.schema && test.schema[n] == prod.schema[n]
    ensures forall n :: n in test.rows <==> n in test.schema
    ensures forall n :: n in test.rows ==> test.rows[n] == []
  {
    Db(map n | n in prod.schema && !IsSystemTable(n) && prod.schema[n].ddl.Some? :: prod.schema[n],
       map n | n in prod.schema && !IsSystemTable(n) && prod.schema[n].ddl.Some? :: [])
  }

  // ---------------------------------------------------------------------------
  // generateTestData
  // ---------------------------------------------------------------------------

  function UserFixture(username: string, roleId: int, name: string, email: string, phone: string): Row
  {
    map["username" := TextV(username), "password" := TextV("test123"), "role_id" := IntV(roleId),
        "name" := TextV(name), "email" := TextV(email), "phone" := TextV(phone),
        "is_active" := IntV(1), "is_temp_password" := IntV(0)]
  }

  const TestUsers: seq<Row> := [
    UserFixture("testadmin", 1, "Test Admin", "testadmin@example.com", "555-000-0000"),
    UserFixture("testmanager", 2, "Test Manager", "testmanager@example.com", "555-000-0001"),
    UserFixture("testsales", 3, "Test Salesperson", "testsales@example.com", "555-000-0002")]

  const TestDealerships: seq<Row> := [
    map["name" := TextV("Test Dealership"), "location" := TextV("Test Location"), "capacity" := IntV(50)]]

  function VehicleFixture(make: string, model: string, color: string, year: int, price: int,
                          typeColumn: string, typeValue: string): Row
  {
    map["make" := TextV(make), "model" := TextV(model), "color" := TextV(color), "year" := IntV(year),
        "price" := IntV(price), typeColumn := TextV(typeValue), "dealerships_id" := IntV(1)]
  }

  const TestVehicles: seq<Row> := [
    VehicleFixture("Honda", "Civic", "Red", 2022, 25000, "car_type", "Sedan"),
    VehicleFixture("Toyota", "Camry", "Blue", 2021, 30000, "car_type", "Sedan"),
    VehicleFixture("Ford", "F-150", "Black", 2023, 45000, "car_type", "Truck"),
    VehicleFixture("Harley-Davidson", "Street 750", "Black", 2022, 8000, "handlebar_type", "Cruiser"),
    VehicleFixture("Yamaha", "YZF R1", "Blue", 2023, 12000, "handlebar_type", "Sport")]

  const TestSales: seq<Row> := [
    map["vehicle_id" := IntV(2), "user_id" := IntV(3), "buyer_name" := TextV("John Doe"),
        "buyer_contact" := TextV("john@example.com"), "sale_date" := TextV("2023-01-15 14:30:00")]]

  /** The fixture INSERTs, grouped by table, in the order they run. */
  const Fixtures: seq<(string, seq<Row>)> :=
    [("users", TestUsers), ("dealerships", TestDealerships), ("Vehicle", TestVehicles), ("Sales", TestSales)]

  /** An INSERT of these rows into `table` runs: the table exists and has
      every column the rows name. */
  predicate Accepts(db: Db, table: string, rows: seq<Row>)
  {
    table in db.schema && table in db.rows && forall i :: 0 <= i < |rows| ==> rows[i].Keys <= db.schema[table].columns
  }

  /** Append rows to a table; an INSERT into a missing table, or naming a
      column the table lacks, throws. */
  function InsertRows(db: Db, table: string, rows: seq<Row>): (r: Option<Db>)
    ensures r.Some? <==> Accepts(db, table, rows)
    ensures r.Some? ==> r.value.schema == db.schema && r.value.rows == db.rows[table := db.rows[table] + rows]
  {
    if Accepts(db, table, rows) then Some(db.(rows := db.rows[table := db.rows[table] + rows])) else None
  }

  /** Every fixture INSERT would run on this store. */
  predicate Seedable(db: Db)
  {
    forall i :: 0 <= i < |Fixtures| ==> Accepts(db, Fixtures[i].0, Fixtures[i].1)
  }

  /** The fixture INSERTs, in order; the first that cannot run throws. */
  function SeedTestData(db: Db): (r: Option<Db>)
    ensures r.Some? <==> Seedable(db)
    ensures r.Some? ==> r.value.schema == db.schema
  {
    var s1 := InsertRows(db, "users", TestUsers);
    if s1.None? then assert !Accepts(db, Fixtures[0].0, Fixtures[0].1); None
    else
      var s2 := InsertRows(s1.value, "dealerships", TestDealerships);
      if s2.None? then assert !Accepts(db, Fixtures[1].0, Fixtures[1].1); None
      else
        var s3 := InsertRows(s2.value, "Vehicle", TestVehicles);
        if s3.None? then assert !Accepts(db, Fixtures[2].0, Fixtures[2].1); None
        else
          var s4 := InsertRows(s3.value, "Sales", TestSales);
          assert s4.None? ==> !Accepts(db, Fixtures[3].0, Fixtures[3].1);
          s4
  }

  /** Seeding appends exactly the fixtures to the four tables and nothing else. */
  lemma SeedContents(db: Db)
    requires Seedable(db)
    ensures var s := SeedTestData(db).value;
      && s.rows.Keys == db.rows.Keys
      && s.rows["users"] == db.rows["users"] + TestUsers
      && s.rows["dealerships"] == db.rows["dealerships"] + TestDealerships
      && s.rows["Vehicle"] == db.rows["Vehicle"] + TestVehicles
      && s.rows["Sales"] == db.rows["Sales"] + TestSales
      && forall t :: t in db.rows && (forall i :: 0 <= i < |Fixtures| ==> Fixtures[i].0 != t) ==> s.rows[t] == db.rows[t]
  {
    assert Accepts(db, Fixtures[0].0, Fixtures[0].1);
    assert Accepts(db, Fixtures[1].0, Fixtures[1].1);
    assert Accepts(db, Fixtures[2].0, Fixtures[2].1);
    assert Accepts(db, Fixtures[3].0, Fixtures[3].1);
  }

  /** The columns `createTables` declares for `users` (DBManager.java:348-351):
      there is no `is_temp_password` (nor `failed_attempts`) among them. */
  const CreatedUsersColumns: set<string> :=
    {"user_id", "username", "password", "role_id", "name", "email", "phone", "is_active", "join_date"}

  /** The fixture users name `is_temp_password`, so seeding throws on a store
      whose `users` table lacks that column, as the one `createTables` builds. */
  lemma SeedingNeedsTempPasswordColumn(db: Db)
    requires "users" in db.schema && "is_temp_password" !in db.schema["users"].columns
    ensures SeedTestData(db).None?
    ensures "is_temp_password" !in CreatedUsersColumns
  {
    assert !Accepts(db, Fixtures[0].0, Fixtures[0].1) by {
      assert "is_temp_password" in TestUsers[0].Keys;
    }
  }

  /** The fixture users: three active accounts without a temporary password,
      all with password "test123", with role ids 1, 2 and 3. */
  lemma FixtureUsers()
    ensures |TestUsers| == 3
    ensures forall i :: 0 <= i < 3 ==>
      TestUsers[i]["password"] == TextV("test123") && TestUsers[i]["role_id"] == IntV(i + 1) &&
      TestUsers[i]["is_active"] == IntV(1) && TestUsers[i]["is_temp_password"] == IntV(0)
    ensures |TestVehicles| == 5
    ensures forall i :: 0 <= i < 5 ==> ("car_type" in TestVehicles[i] <==> i < 3)
    ensures forall i :: 0 <= i < 5 ==> ("handlebar_type" in TestVehicles[i] <==> i >= 3)
  {
  }

  // ---------------------------------------------------------------------------
  // enterTestMode / exitTestMode
  // ---------------------------------------------------------------------------

  /** Failures while entering test mode: opening the in-memory store, or
      running a copied CREATE statement. Seeding fails on its own when a
      fixture table was not copied or lacks a column a fixture names. */
  datatype EnterFault = NoEnterFault | ConnectFails | CopyFails

  /** enterTestMode: a no-op in test mode; otherwise open a fresh store, copy
      the schema, seed it, and only then set the flag. The flag says whether
      the call threw. */
  function EnterTestMode(m: Manager, fault: EnterFault): (r: (Manager, bool))
    requires Valid(m)
    ensures Valid(r.0)
    ensures r.0.production == m.production
    ensures m.testMode ==> r == (m, false)
    ensures r.0.testMode <==> m.testMode || !r.1
    ensures !m.testMode && !r.1 ==> fault == NoEnterFault
    ensures !m.testMode && !r.1 ==> r.0.test == SeedTestData(CopySchema(m.production))
    ensures !m.testMode && fault == NoEnterFault ==> (r.1 <==> !Seedable(CopySchema(m.production)))
  {
    if m.testMode then (m, false)
    else if fault.ConnectFails? then (m, true)
    else if fault.CopyFails? then (m.(test := Some(EmptyDb)), true)
    else
      var copied := CopySchema(m.production);
      var seeded := SeedTestData(copied);
      if seeded.None? then (m.(test := Some(copied)), true)
      else (Manager(m.production, seeded, true), false)
  }

  /** Seeding the copied schema works exactly when every fixture table is
      copied from production with every column its fixture rows name. */
  lemma CopiedSchemaSeedable(prod: Db)
    ensures Seedable(CopySchema(prod)) <==>
      forall i :: 0 <= i < |Fixtures| ==>
        Copied(prod, Fixtures[i].0) &&
        forall j :: 0 <= j < |Fixtures[i].1| ==> Fixtures[i].1[j].Keys <= prod.schema[Fixtures[i].0].columns
  {
  }

  /** A production store whose `users` table is the one `createTables`
      builds cannot enter test mode: the fixture INSERT names a column that
      table lacks, entry throws and the flag stays clear. */
  lemma EnterFailsOnCreatedUsersTable(m: Manager, fault: EnterFault)
    requires Valid(m) && !m.testMode
    requires "users" in m.production.schema && m.production.schema["users"].columns == CreatedUsersColumns
    ensures var (r, threw) := EnterTestMode(m, fault);
      threw && !r.testMode && r.production == m.production
  {
    var c := CopySchema(m.production);
    if "users" in c.schema {
      SeedingNeedsTempPasswordColumn(c);
    } else {
      assert !Accepts(c, Fixtures[0].0, Fixtures[0].1);
    }
  }

  /** exitTestMode: a no-op out of test mode; otherwise close the test store
      and clear the flag. `closeThrows` is whether `isClosed()` or `close()`
      throws; the flag is then never reached and stays set, with the test
      store in place. The flag of the pair says whether the call threw. */
  function ExitTestMode(m: Manager, closeThrows: bool): (r: (Manager, bool))
    requires Valid(m)
    ensures Valid(r.0) && r.0.production == m.production
    ensures r.1 <==> m.testMode && closeThrows
    ensures r.1 ==> r.0 == m
    ensures !r.1 ==> !r.0.testMode
    ensures !m.testMode ==> r.0 == m
    ensures m.testMode && !closeThrows ==> r.0.test.None?
  {
    if !m.testMode then (m, false)
    else if closeThrows then (m, true)
    else (Manager(m.production, None, false), false)
  }

  /** Entering twice is entering once; leaving twice is leaving once; a
      leave that throws can be retried. */
  lemma EnterExitIdempotent(m: Manager, f1: EnterFault, f2: EnterFault, c1: bool, c2: bool)
    requires Valid(m)
    ensures var (m1, threw) := EnterTestMode(m, f1);
      !threw ==> EnterTestMode(m1, f2) == (m1, false)
    ensures var (m1, threw) := ExitTestMode(m, c1);
      && (!threw ==> ExitTestMode(m1, c2) == (m1, false))
      && (threw ==> m1.testMode && ExitTestMode(m1, c2) == ExitTestMode(m, c2))
  {
  }

  /** A session of test mode: enter, run writes, leave. When entering
      succeeds, production ends as it began; when it throws, the flag stays
      clear and the writes go to production. */
  lemma {:induction false} TestSessionSparesProduction(m: Manager, fault: EnterFault, stmts: seq<Db -> Option<Db>>, closeThrows: bool)
    requires Valid(m) && !m.testMode
    ensures var (entered, threw) := EnterTestMode(m, fault);
      && (!threw ==> ExitTestMode(RunWrites(entered, stmts), closeThrows).0.production == m.production)
      && (threw ==> !entered.testMode && RunWrites(entered, stmts) == RunWrites(m.(test := entered.test), stmts))
  {
    var (entered, threw) := EnterTestMode(m, fault);
    if !threw {
      TestWritesSpareProduction(entered, stmts);
    }
  }

  // ---------------------------------------------------------------------------
  // getInstance
  // ---------------------------------------------------------------------------

  /** The static field holding the one manager. */
  datatype Registry = Registry(instance: Option<Manager>)

  /** getInstance: create the manager when none is stored, return the stored
      one otherwise. `created` is what the constructor builds, None when it
      throws; the call then throws (a None result) and the field stays null. */
  function GetInstance(reg: Registry, created: Option<Manager>): (r: (Registry, Option<Manager>))
    ensures r.1.Some? ==> r.0.instance == r.1
    ensures r.1.None? <==> reg.instance.None? && created.None?
    ensures r.1.None? ==> r.0 == reg
    ensures reg.instance.Some? ==> r == (reg, reg.instance)
    ensures reg.instance.None? ==> r.1 == created
  {
    match reg.instance
    case Some(m) => (reg, Some(m))
    case None =>
      match created
      case None => (reg, None)
      case Some(m) => (Registry(Some(m)), Some(m))
  }

  /** Every call after a successful one returns the instance that call
      returned; after a throwing first call the next call constructs again. */
  lemma SameInstanceEveryTime(reg: Registry, created1: Option<Manager>, created2: Option<Manager>)
    ensures var (reg1, m1) := GetInstance(reg, created1);
      && (m1.Some? ==> GetInstance(reg1, created2) == (reg1, m1))
      && (m1.None? ==> GetInstance(reg1, created2).1 == created2)
  {
  }
}
